=== FILE: README.md ===
# Network tools of UNIT_1/S4-buildweek, modelled in Dafny

This project models the pure logic inside three small Python network tools.
It proves properties of that logic.

- `sniffer.py` captures raw link-layer frames and prints one line per frame.
  The model covers one iteration of its capture loop: the length guard, the
  Ethernet II header (addresses and big-endian EtherType), and the IPv4 header
  fields of section 3.1 of RFC 791 (IHL, Protocol, source and destination
  address). It also covers the source and destination ports, which are the first
  two 16-bit fields of both the TCP header (section 3.1 of RFC 9293) and the UDP
  header (RFC 768), and the printed line. The helpers `mac_addr` and `ipv4_addr`
  are modelled too.
- `socket_scanner.py` scans a port range with TCP connects. The model covers
  `parse_range` with all of its error cases, and the loop of `run_scan` with the
  connect probe as a function parameter. It also covers `build_report`, which
  sorts the results into open, closed and filtered ports.
- `http_req.py` probes a URL with eight HTTP methods (GET, POST, PUT, DELETE,
  HEAD, OPTIONS, PATCH and TRACE; CONNECT is not among them). The model covers the table
  that maps a status code (section 15 of RFC 9110) to the printed description,
  and the `http://` prefix added to a URL typed without a scheme.

Files:

- `wrappers.dfy`: `Option` and `Result`. A `Result` failure stands for a raised `ValueError`.
- `bytes.dfy`: octets, 16-bit values, and big-endian reads and writes.
- `text.dfy`: the string operations the scripts use. These are `str.join`, `str.split`,
  `02x`/`04x` hex rendering, `str()` and `int()`. Each comes with the parser or
  renderer that undoes it.
- `sniffer.dfy`, `scanner.dfy` and `http.dfy`: one module per script.

The sniffer is modelled as the code is written. Section 3.1 of RFC 791 sets
the minimum value of a correct IHL at 5 (a 20-byte header), but the code does
not check it:

- `(ver_ihl & 0x0F) * 4` is used unchecked. It can be 0 to 60.
  `Sniffer.ShortHeaderReadsPortsInsideIpv4` shows what happens when the IHL is
  below 5: the "ports" are read from inside the 20-byte IPv4 header.
- A frame under 14 bytes is skipped with `continue`. `Sniffer.DecodeFrame`
  returns `None` for it.

The model follows the code. The only bitwise operation, `& 0x0F` on an octet,
is written as `% 16`; the two agree for every value from 0 to 255.

## Model

| member | source | states |
|---|---|---|
| `Text.Split` | UNIT_1/S4-buildweek/socket_scanner.py:22 | `str.split` on one character gives one more piece than there are separators, and no piece contains the separator |
| `Text.JoinSplit` | UNIT_1/S4-buildweek/socket_scanner.py:22 | joining the pieces of a split with the same separator gives back the original string |
| `Text.SplitJoin` | UNIT_1/S4-buildweek/socket_scanner.py:22 | splitting a join of separator-free pieces gives back the pieces |
| `Text.Hex2RoundTrip` | UNIT_1/S4-buildweek/sniffer.py:11 | `f"{b:02x}"` is a bijection between octets and pairs of lower-case hex digits |
| `Text.Hex4RoundTrip` | UNIT_1/S4-buildweek/sniffer.py:93 | `f"{ethertype:04x}"` gives four hex digits, and they read back to the EtherType |
| `Text.Decimal` | UNIT_1/S4-buildweek/sniffer.py:15 | `str(n)` is a non-empty string of digits with no leading zero, one digit exactly when n < 10 |
| `Text.DecimalRoundTrip` | UNIT_1/S4-buildweek/sniffer.py:15 | reading `str(n)` back as decimal digits gives n |
| `Text.DecimalOfDigits` | UNIT_1/S4-buildweek/sniffer.py:15 | every digit string without a leading zero is `str()` of its value |
| `Text.ParseInt` | UNIT_1/S4-buildweek/socket_scanner.py:16 | `int()` reads a value exactly when the text is one or more ASCII digits with an optional "+" or "-" in front, and raises otherwise; the value of a text without "-" is never negative |
| `Text.ParseIntDecimal` | UNIT_1/S4-buildweek/socket_scanner.py:27-28 | `int(str(n)) == n` |
| `Text.ParseIntLeadingZeros` | UNIT_1/S4-buildweek/socket_scanner.py:16 | zeros in front of a decimal numeral do not change what `int()` reads: `int("0080") == 80` |
| `Text.ParseIntSign` | UNIT_1/S4-buildweek/socket_scanner.py:27-28 | a leading "+" in front of a digit string is accepted and changes nothing; a leading "-" negates the value |
| `Text.JoinTotalLength` | UNIT_1/S4-buildweek/sniffer.py:15 | `sep.join(parts)` of one or more pieces is as long as the pieces together plus one separator for each neighbouring pair |
| `Text.SplitAtSep` | UNIT_1/S4-buildweek/socket_scanner.py:22 | `str.split` ends the first piece at the first separator and splits the rest on its own |
| `Text.Hex2` | UNIT_1/S4-buildweek/sniffer.py:11 | `f"{b:02x}"` is exactly two hex digits |
| `Text.Hex4` | UNIT_1/S4-buildweek/sniffer.py:93 | `f"{ethertype:04x}"` of a 16-bit value is exactly four hex digits |
| `Bytes.ReadU16` | UNIT_1/S4-buildweek/sniffer.py:51 | the big-endian unsigned short read at an offset is the value whose two network-order bytes are exactly the two bytes read |
| `Bytes.ReadEncodeU16` | UNIT_1/S4-buildweek/sniffer.py:51 | a 16-bit value written big-endian anywhere in a byte string reads back unchanged |
| `Sniffer.MacAddr` | UNIT_1/S4-buildweek/sniffer.py:9-11 | n >= 1 octets print as 3n - 1 characters (two hex digits each, colons between them); no octets print as the empty string |
| `Sniffer.Ipv4Addr` | UNIT_1/S4-buildweek/sniffer.py:13-15 | n >= 1 octets print as 2n - 1 to 4n - 1 characters (one to three digits each, dots between them); no octets print as the empty string |
| `Sniffer.MacAddrLength` | UNIT_1/S4-buildweek/sniffer.py:9-11 | six octets render as 17 characters with exactly five colons |
| `Sniffer.MacAddrRoundTrip` | UNIT_1/S4-buildweek/sniffer.py:9-11 | `mac_addr` is a bijection from non-empty octet strings onto the strings the colon-hex parser accepts; in particular it recovers the six address bytes |
| `Sniffer.Ipv4AddrShape` | UNIT_1/S4-buildweek/sniffer.py:13-15 | four octets render as exactly three dots separating four decimal numbers, each the value of its octet and so in 0..255 |
| `Sniffer.Ipv4AddrRoundTrip` | UNIT_1/S4-buildweek/sniffer.py:13-15 | `ipv4_addr` is a bijection from non-empty octet strings onto the strings the dotted-decimal parser accepts |
| `Sniffer.HeaderLengthOf` | UNIT_1/S4-buildweek/sniffer.py:65-69 | the IPv4 header length is a multiple of 4 between 0 and 60; it is not checked against 20 |
| `Sniffer.DecodeIpv4` | UNIT_1/S4-buildweek/sniffer.py:62-74 | the fields read through the relative offsets of `ip_header` are bytes 14 (IHL nibble), 23 (protocol), 26..29 and 30..33 (addresses) of the frame, all within the 34 bytes the guard ensures |
| `Sniffer.DecodePorts` | UNIT_1/S4-buildweek/sniffer.py:78-86 | ports are read exactly when the protocol is 6 or 17 and the frame holds 14 + ihl + 4 bytes; they are the two big-endian values at 14 + ihl and 16 + ihl |
| `Sniffer.Decode` | UNIT_1/S4-buildweek/sniffer.py:42-60 | no result exactly for frames under 14 bytes; the addresses are bytes 0..5 and 6..11; EtherType = frame[12]*256 + frame[13]; the IPv4 branch is taken exactly for EtherType 0x0800 with at least 34 bytes; otherwise the frame length is reported |
| `Sniffer.PortsSuffix` | UNIT_1/S4-buildweek/sniffer.py:78-86 | the suffix is empty exactly when no ports were read; otherwise it reads back to the same two port numbers |
| `Sniffer.NetworkPart` | UNIT_1/S4-buildweek/sniffer.py:89-93 | after the addresses, an IPv4 line continues with " IPv4 "; any other line continues with " ethertype=0x" and is 22 characters plus the digits of the frame length long |
| `Sniffer.NetworkPartFields` | UNIT_1/S4-buildweek/sniffer.py:93 | in the non-IPv4 tail, the four hex digits read back to the EtherType and the rest is " len=" and the frame length |
| `Sniffer.FormatLine` | UNIT_1/S4-buildweek/sniffer.py:89-93 | every line starts with the timestamp and a space; with 6-byte addresses the line is 39 characters longer than the timestamp and network part together |
| `Sniffer.LineMacFields` | UNIT_1/S4-buildweek/sniffer.py:89-93 | with 6-byte addresses, the characters at \|ts\|+1..\|ts\|+18 read back to the source address, " -> " follows, the next 17 characters read back to the destination address, and the network part follows |
| `Sniffer.LineFields` | UNIT_1/S4-buildweek/sniffer.py:93 | a non-IPv4 line has " ethertype=0x" at \|ts\|+39, four hex digits that read back to the EtherType, and ends with " len=" and the frame length |
| `Sniffer.Ipv4LineMarker` | UNIT_1/S4-buildweek/sniffer.py:89 | an IPv4 line has " IPv4 " right after the destination address |
| `Sniffer.DecodeFrame` | UNIT_1/S4-buildweek/sniffer.py:42-93 | one loop iteration prints a line exactly when the frame has at least 14 bytes, and that line starts with the timestamp |
| `Sniffer.LineOfOtherFrame` | UNIT_1/S4-buildweek/sniffer.py:42-93 | the whole line printed for a frame of 14 or more bytes that is not an IPv4 frame: timestamp, MAC of bytes 6..11, " -> ", MAC of bytes 0..5, " ethertype=0x", the four hex digits of bytes 12..13, " len=", the frame length |
| `Sniffer.LineOfIpv4Frame` | UNIT_1/S4-buildweek/sniffer.py:60-89 | the whole line printed for an IPv4 frame: timestamp, the two MACs, " IPv4 ", the dotted addresses of bytes 26..29 and 30..33, " proto=" and byte 23 in decimal, then the ports suffix |
| `Sniffer.LineFieldsOfFrame` | UNIT_1/S4-buildweek/sniffer.py:42-93 | for every frame of 14 or more bytes, the printed line holds at fixed positions fields that read back to bytes 6..11 and 0..5; a non-IPv4 line's hex field reads back to frame[12]*256 + frame[13] and the line ends with the frame length; an IPv4 line has " IPv4 " after the addresses |
| `Sniffer.OneLinePerFrame` | UNIT_1/S4-buildweek/sniffer.py:42-93 | no line for a frame under 14 bytes; for longer frames exactly one line, with no line break in it |
| `Sniffer.EthernetRoundTrip` | UNIT_1/S4-buildweek/sniffer.py:46-51 | two 6-byte addresses and an EtherType written as an Ethernet header decode back to the same values, whatever follows them |
| `Sniffer.Ipv4BranchIff` | UNIT_1/S4-buildweek/sniffer.py:60-93 | the IPv4 line is printed if and only if the EtherType bytes are 08 00 and the frame has at least 34 bytes; every other frame, short IPv4 frames included, gets the EtherType-and-length line |
| `Sniffer.PortsRoundTrip` | UNIT_1/S4-buildweek/sniffer.py:80-84 | two 16-bit values written big-endian at offset 14 + ihl of a TCP or UDP frame decode to the same pair, while the IPv4 header is unchanged |
| `Sniffer.ShortHeaderReadsPortsInsideIpv4` | UNIT_1/S4-buildweek/sniffer.py:69-84 | with an IHL below 5, the bytes read as ports lie inside the fixed 20-byte IPv4 header |
| `Sniffer.ScenarioShortIpv4` | UNIT_1/S4-buildweek/sniffer.py:60-93 | a 14-byte frame with EtherType 0x0800 takes the EtherType-and-length branch with length 14 |
| `Sniffer.ScenarioShortIpv4Line` | UNIT_1/S4-buildweek/sniffer.py:42-93 | the 14-byte frame with addresses ..:01 and ..:02 and EtherType 0x0800 prints as ts + " 00:00:00:00:00:02 -> 00:00:00:00:00:01 ethertype=0x0800 len=14" |
| `Sniffer.ScenarioHeaderFields` | UNIT_1/S4-buildweek/sniffer.py:62-74 | a header whose first IPv4 byte is 0x45 and whose protocol byte is 6 decodes to header length 20, protocol 6 and addresses 192.168.1.10 and 192.168.1.20 |
| `Sniffer.ScenarioTcpPorts` | UNIT_1/S4-buildweek/sniffer.py:60-86 | a 34-byte TCP frame decodes with no ports; with bytes 00 50 1F 90 appended it decodes to ports 80 and 8080 |
| `Sniffer.ScenarioAddressRendering` | UNIT_1/S4-buildweek/sniffer.py:13-15 | the octets 192, 168, 1, 10 print as "192.168.1.10", and 192, 168, 1, 20 as "192.168.1.20" |
| `Sniffer.ScenarioIpv4Line` | UNIT_1/S4-buildweek/sniffer.py:60-89 | the bare 34-byte TCP frame prints as ts + " 00:00:00:00:00:02 -> 00:00:00:00:00:01 IPv4 192.168.1.10 -> 192.168.1.20 proto=6", with no ports |
| `Sniffer.ScenarioTcpLine` | UNIT_1/S4-buildweek/sniffer.py:60-89 | with bytes 00 50 1F 90 appended, the same line ends in " proto=6 ports 80->8080" |
| `Sniffer.ScenarioPortsRendering` | UNIT_1/S4-buildweek/sniffer.py:86 | ports 80 and 8080 print as the suffix " ports 80->8080" |
| `Scanner.RemoveSpaces` | UNIT_1/S4-buildweek/socket_scanner.py:8 | the result has no space, and every other character occurs exactly as often as in the input |
| `Scanner.RemoveSpacesAppend` | UNIT_1/S4-buildweek/socket_scanner.py:8 | removing spaces from a concatenation is removing them from each part and concatenating, so the other characters keep their order |
| `Scanner.ParsePort` | UNIT_1/S4-buildweek/socket_scanner.py:27-28 | `int()` of a port text fails exactly when the text is not an integer literal, and the failure carries the text; a canonical decimal reads as its value; a success from a text without "-" is not negative |
| `Scanner.ParseRange` | UNIT_1/S4-buildweek/socket_scanner.py:7-36 | every success satisfies 0 <= low <= high <= 65535; the input is rejected as empty exactly when nothing but spaces is left; without "-" a success has low == high; two or more "-" are rejected as malformed |
| `Scanner.ParseSinglePort` | UNIT_1/S4-buildweek/socket_scanner.py:14-19 | a single decimal port p gives (p, p) exactly when p <= 65535; otherwise it is rejected as out of range |
| `Scanner.ParsePortPair` | UNIT_1/S4-buildweek/socket_scanner.py:21-36 | "low-high" gives (low, high) exactly when both are <= 65535 and low <= high; otherwise it raises the bounds error or the order error, in that priority |
| `Scanner.ParseFormatRange` | UNIT_1/S4-buildweek/socket_scanner.py:7-36 | every valid range has a text that parses back to it |
| `Scanner.ParseRangeIgnoresSpaces` | UNIT_1/S4-buildweek/socket_scanner.py:8 | spaces anywhere in the input do not change the outcome |
| `Scanner.ParseRangeLeadingZero` | UNIT_1/S4-buildweek/socket_scanner.py:14-19 | "080" is accepted as the single port 80 |
| `Scanner.ParseRangePlusSign` | UNIT_1/S4-buildweek/socket_scanner.py:14-19 | "+5" is accepted as the single port 5 |
| `Scanner.PortPairExample` | UNIT_1/S4-buildweek/socket_scanner.py:21-36 | "5-9" is accepted as the range 5 to 9 |
| `Scanner.ParseRangeSpacesInside` | UNIT_1/S4-buildweek/socket_scanner.py:7-36 | " 5 - 9" is accepted as the range 5 to 9, spaces around the "-" included |
| `Scanner.ParseRangeRejectsNonInteger` | UNIT_1/S4-buildweek/socket_scanner.py:15-16 | a single port text (spaces removed, non-empty, no "-") that is not an integer literal is rejected by `int()` with that text |
| `Scanner.ParseRangeRejectsNonIntegerBound` | UNIT_1/S4-buildweek/socket_scanner.py:22-28 | in "low-high", a bound that is not an integer literal is rejected by `int()`, the low bound first |
| `Scanner.ParseRangeRejectsLetters` | UNIT_1/S4-buildweek/socket_scanner.py:16 | "8a" is rejected by `int()` before any range check |
| `Scanner.ParseRangeRejects` | UNIT_1/S4-buildweek/socket_scanner.py:22-28 | "1-2-3" is rejected as malformed; "-5" is rejected by `int()` of its empty low part |
| `Scanner.RunScan` | UNIT_1/S4-buildweek/socket_scanner.py:67-77 | max(0, high - low + 1) entries; entry i is port low + i with its probe state, so the ports ascend and none repeats |
| `Scanner.BuildReport` | UNIT_1/S4-buildweek/socket_scanner.py:81-110 | the open, closed and filtered lists are exactly the ports whose state is "open", "closed" or anything else, in their original order; each count is its list's length; scanned_ports = high - low + 1; the other fields pass through |
| `Scanner.BucketOf` | UNIT_1/S4-buildweek/socket_scanner.py:88-93 | a result goes to the open list exactly when its state is "open", to the closed list exactly when it is "closed", and to the filtered list for every other state |
| `Scanner.ReportPartitions` | UNIT_1/S4-buildweek/socket_scanner.py:87-107 | together the three lists hold the result ports as a multiset, so the three counts sum to the number of results |
| `Scanner.EachPortInOneList` | UNIT_1/S4-buildweek/socket_scanner.py:87-93 | with distinct ports, as a scan produces them, each port is in exactly one list: the one its state selects |
| `Scanner.ScanRange` | UNIT_1/S4-buildweek/socket_scanner.py:126-128 | for a range low <= high, the report is for that range, target and timeout; its results are the probes of low, low + 1, ..., high in order; its lists are the ports of each state; the counts sum to scanned_ports, which is the number of results |
| `Scanner.ScanAndReport` | UNIT_1/S4-buildweek/socket_scanner.py:121-128 | fails exactly when `parse_range` fails, and then with `parse_range`'s own error; on success the report is for exactly the (low, high) `parse_range` returned, with the given target and timeout, one probe result per port of that range in order, the lists split by state, and counts that sum to scanned_ports, the number of results |
| `Http.Classify` | UNIT_1/S4-buildweek/http_req.py:32-52 | the row chosen by the `elif` chain is a row the code belongs to |
| `Http.Label` | UNIT_1/S4-buildweek/http_req.py:32-52 | each row's description reads back to that row |
| `Http.Describe` | UNIT_1/S4-buildweek/http_req.py:32-52 | the printed description names a row, and the code belongs to that row |
| `Http.ClassifyIsTheTable` | UNIT_1/S4-buildweek/http_req.py:32-52 | the `elif` chain picks a code's row if and only if the code is in that row's set; the rows are disjoint and cover every integer, so their order does not matter |
| `Http.LabelsDistinct` | UNIT_1/S4-buildweek/http_req.py:32-52 | distinct rows print distinct descriptions |
| `Http.DescribeCharacterised` | UNIT_1/S4-buildweek/http_req.py:32-52 | the description is "REDIRECT" if and only if the code is in [300, 400); it is "Altro" if and only if the code is in no other row; it is "ACCETTATO (OK)" if and only if the code is 200 |
| `Http.NormalizeUrl` | UNIT_1/S4-buildweek/http_req.py:70-71 | the result starts with "http://" or "https://"; a URL that already does is unchanged; otherwise the result is exactly "http://" followed by the URL |
| `Http.NormalizeUrlIdempotent` | UNIT_1/S4-buildweek/http_req.py:70-71 | normalising twice is the same as normalising once |

## Left out

- Raw socket handling in `sniffer.py` is OS I/O and signal handling, so it is not modelled. This covers socket creation, `bind`, `recvfrom`, the endless loop, `KeyboardInterrupt` and closing in `finally` (lines 21-37 and 95-100). The 65535-byte receive buffer is not modelled either.
- Timestamps from `datetime.now()` are not modelled. The frame timestamp is an opaque string parameter `ts`, and the report's `started_at` field is omitted.
- Console and file output is not modelled: the startup banner, `print`, `input`, `open` and `json.dump`. The column padding of the verb table is left out with it.
- `scan_port_state` is a network call with timeouts and error mapping (socket_scanner.py:40-63). It becomes the function parameter `probe`. `timeout_s` is a `real` that is only passed through.
- `requests.request` and its exception handling are foreign network calls (http_req.py:18-23, 59-61). So is the loop over the verb list, which prints one row per request. Only the description table is modelled.
- `Text.ParseInt`: Python's `int()` also strips surrounding whitespace, and it accepts underscores between digits and non-ASCII digits. The model accepts an optional sign followed by ASCII digits only.
- The error messages of `parse_range` are kept only as comments on the `RangeError` constructors. The message `int()` produces is not modelled.

=== FILE: bytes.dfy ===
/** Octets and the big-endian ("network order") 16-bit fields read from them. */
module Bytes {

  /** One octet of a captured frame. */
  type byte = b: int | 0 <= b < 256

  /** An unsigned 16-bit value, as produced by `struct.unpack("!H", ...)`. */
  type u16 = v: int | 0 <= v < 0x1_0000

  /** The big-endian 16-bit value stored at `s[off]`, `s[off + 1]`. */
  function ReadU16(s: seq<byte>, off: nat): (v: u16)
    requires off + 2 <= |s|
    ensures EncodeU16(v) == s[off..off + 2]
  {
    (s[off] as int) * 256 + (s[off + 1] as int)
  }

  /** The two octets that store `v` in network order. */
  function EncodeU16(v: u16): (r: seq<byte>)
    ensures |r| == 2
    ensures r[0] < 256 && r[1] < 256
  {
    [v / 256, v % 256]
  }

  /** Reading back an encoded value gives the value, wherever the encoding sits. */
  lemma ReadEncodeU16(prefix: seq<byte>, v: u16, suffix: seq<byte>)
    ensures ReadU16(prefix + EncodeU16(v) + suffix, |prefix|) == v
  {
  }
}

=== FILE: http.dfy ===
/** The pure parts of `http_req.py`: the description printed for an HTTP
    status code (codes after section 15 of RFC 9110), and the scheme added to
    a URL typed without one. */
module Http {
  import opened Wrappers
  import opened Text

  /** The rows of the script's decision table. */
  datatype Category =
    | Accepted          // 200
    | MethodNotAllowed  // 405
    | Forbidden         // 403
    | NotFound          // 404
    | Unauthorized      // 401
    | Redirect          // 3xx
    | Other             // anything else

  /** The `if`/`elif` chain of `verifica_verbi_http`, tried top to bottom. */
  function Classify(code: int): (c: Category)
    ensures InRow(c, code)
  {
    if code == 200 then Accepted
    else if code == 405 then MethodNotAllowed
    else if code == 403 then Forbidden
    else if code == 404 then NotFound
    else if code == 401 then Unauthorized
    else if 300 <= code < 400 then Redirect
    else Other
  }

  /** The label printed for each row. */
  function Label(c: Category): (s: string)
    ensures RowOfLabel(s) == Some(c)
  {
    match c
    case Accepted => "ACCETTATO (OK)"
    case MethodNotAllowed => "NON PERMESSO (Method Not Allowed)"
    case Forbidden => "VIETATO (Forbidden)"
    case NotFound => "RISORSA NON TROVATA"
    case Unauthorized => "NON AUTORIZZATO"
    case Redirect => "REDIRECT"
    case Other => "Altro"
  }

  /** Reads a printed label back to its row; `None` for any other text. */
  function RowOfLabel(s: string): Option<Category>
  {
    if s == "ACCETTATO (OK)" then Some(Accepted)
    else if s == "NON PERMESSO (Method Not Allowed)" then Some(MethodNotAllowed)
    else if s == "VIETATO (Forbidden)" then Some(Forbidden)
    else if s == "RISORSA NON TROVATA" then Some(NotFound)
    else if s == "NON AUTORIZZATO" then Some(Unauthorized)
    else if s == "REDIRECT" then Some(Redirect)
    else if s == "Altro" then Some(Other)
    else None
  }

  /** The description printed next to a status code. */
  function Describe(code: int): (s: string)
    ensures RowOfLabel(s).Some? && InRow(RowOfLabel(s).value, code)
  {
    Label(Classify(code))
  }

  /** Reference definition, independent of the order of the chain: the
      status codes each row stands for. */
  predicate InRow(c: Category, code: int)
  {
    match c
    case Accepted => code == 200
    case MethodNotAllowed => code == 405
    case Forbidden => code == 403
    case NotFound => code == 404
    case Unauthorized => code == 401
    case Redirect => 300 <= code < 400
    case Other => code !in {200, 401, 403, 404, 405} && !(300 <= code < 400)
  }

  /** The rows are disjoint and cover every integer, so every code has
      exactly one row, and the chain picks that row. */
  lemma ClassifyIsTheTable(code: int, c: Category)
    ensures Classify(code) == c <==> InRow(c, code)
  {
  }

  /** Distinct rows print distinct labels, so the printed description
      determines the row. */
  lemma LabelsDistinct(c: Category, d: Category)
    ensures Label(c) == Label(d) <==> c == d
  {
  }

  /** What the description of a code reveals about it. */
  lemma DescribeCharacterised(code: int)
    ensures Describe(code) == "REDIRECT" <==> 300 <= code < 400
    ensures Describe(code) == "Altro" <==> code !in {200, 401, 403, 404, 405} && !(300 <= code < 400)
    ensures Describe(code) == "ACCETTATO (OK)" <==> code == 200
  {
  }

  /** The URL starts with `http://` or `https://`. */
  predicate HasScheme(url: string)
  {
    StartsWith(url, "http://") || StartsWith(url, "https://")
  }

  /** The entry point's defaulting: `http://` is put in front of a URL that
      has neither scheme. */
  function NormalizeUrl(url: string): (r: string)
    ensures HasScheme(r)
    ensures HasScheme(url) ==> r == url
    ensures !HasScheme(url) ==> r == "http://" + url
    ensures |r| == |url| || |r| == |url| + 7
    ensures r[|r| - |url|..] == url
  {
    if HasScheme(url) then url
    else
      var r := "http://" + url;
      assert r[..7] == "http://";
      r
  }

  /** Normalising twice is normalising once. */
  lemma NormalizeUrlIdempotent(url: string)
    ensures NormalizeUrl(NormalizeUrl(url)) == NormalizeUrl(url)
  {
  }
}

=== FILE: scanner.dfy ===
/** The pure parts of `socket_scanner.py`: parsing the port range typed by
    the user, the loop that probes every port of the range, and the report
    that sorts the probe results into open, closed and filtered ports. The
    TCP connect probe itself is a parameter. */
module Scanner {
  import opened Wrappers
  import opened Text

  const MaxPort: nat := 65535

  /** The `ValueError`s `parse_range` raises, one per `raise` and one for a
      piece `int()` rejects. */
  datatype RangeError =
    | EmptyRange                // "Range vuoto. ..."
    | NotAnInteger(text: string) // raised by `int()` itself
    | PortOutOfRange            // "La porta deve essere tra 0 e 65535"
    | MalformedRange            // "Formato range non valido. ..."
    | BoundsOutOfRange          // "Le porte devono essere tra 0 e 65535"
    | LowAboveHigh              // "Range non valido: la porta iniziale è maggiore della finale"

  /** `s.replace(" ", "")`. */
  function RemoveSpaces(s: string): (r: string)
    ensures ' ' !in r
    ensures ' ' !in s ==> r == s
    ensures |r| + CountChar(s, ' ') == |s|
    ensures forall c :: c != ' ' ==> CountChar(r, c) == CountChar(s, c)
  {
    if |s| == 0 then ""
    else if s[0] == ' ' then RemoveSpaces(s[1..])
    else [s[0]] + RemoveSpaces(s[1..])
  }

  /** Removal works piecewise and keeps the order of what it keeps: the
      result for `a + b` is the result for `a` followed by that for `b`.
      With `RemoveSpacesOne` this determines the result of every input. */
  lemma {:induction false} RemoveSpacesAppend(a: string, b: string)
    ensures RemoveSpaces(a + b) == RemoveSpaces(a) + RemoveSpaces(b)
  {
    if |a| > 0 {
      var s := a + b;
      RemoveSpacesAppend(a[1..], b);
      assert s[0] == a[0];
      assert s[1..] == a[1..] + b;
      if a[0] == ' ' {
        assert RemoveSpaces(s) == RemoveSpaces(a[1..] + b);
      } else {
        assert RemoveSpaces(s) == [a[0]] + RemoveSpaces(a[1..] + b);
        assert RemoveSpaces(a) == [a[0]] + RemoveSpaces(a[1..]);
      }
    } else {
      assert a + b == b;
    }
  }

  /** A single character: a space is dropped, anything else is kept. */
  lemma RemoveSpacesOne(c: char)
    ensures RemoveSpaces([c]) == if c == ' ' then "" else [c]
  {
  }

  /** `int(text)`, failing with `NotAnInteger`. */
  function ParsePort(text: string): (r: Result<int, RangeError>)
    ensures r.Success? && '-' !in text ==> r.value >= 0
    ensures r.Failure? <==> !IsIntLiteral(text)
    ensures r.Failure? ==> r.error == NotAnInteger(text)
    ensures text == "" ==> r.Failure?
    ensures IsCanonicalDecimal(text) ==> r == Success(DigitsValue(text))
  {
    match ParseInt(text)
    case Some(n) => Success(n)
    case None => Failure(NotAnInteger(text))
  }

  /** `parse_range`: a single port `p` gives `(p, p)`, `low-high` gives
      `(low, high)`; spaces anywhere are ignored. */
  function ParseRange(text: string): (r: Result<(int, int), RangeError>)
    ensures r.Success? ==> 0 <= r.value.0 <= r.value.1 <= MaxPort
    ensures r == Failure(EmptyRange) <==> RemoveSpaces(text) == ""
    ensures r.Success? && '-' !in text ==> r.value.0 == r.value.1
    ensures CountChar(text, '-') >= 2 ==> r == Failure(MalformedRange)
  {
    var compact := RemoveSpaces(text);
    if compact == "" then Failure(EmptyRange)
    else if '-' !in compact then
      match ParsePort(compact)
      case Failure(e) => Failure(e)
      case Success(port) =>
        if port < 0 || port > MaxPort then Failure(PortOutOfRange)
        else Success((port, port))
    else
      var parts := Split(compact, '-');
      if |parts| != 2 then Failure(MalformedRange)
      else
        match ParsePort(parts[0])
        case Failure(e) => Failure(e)
        case Success(low) =>
          match ParsePort(parts[1])
          case Failure(e) => Failure(e)
          case Success(high) =>
            if low < 0 || high < 0 || low > MaxPort || high > MaxPort then Failure(BoundsOutOfRange)
            else if low > high then Failure(LowAboveHigh)
            else Success((low, high))
  }

  /** The text a user types for a range: one number when both ends agree,
      `low-high` otherwise. */
  function FormatRange(low: nat, high: nat): string
  {
    if low == high then Decimal(low) else Decimal(low) + "-" + Decimal(high)
  }

  lemma NoSpaceOrDashInDecimal(n: nat)
    ensures ' ' !in Decimal(n) && '-' !in Decimal(n)
  {
  }

  /** A single decimal port: accepted as `(p, p)` exactly when it is at most
      65535, otherwise rejected as out of range. */
  lemma ParseSinglePort(p: nat)
    ensures ParseRange(Decimal(p)) == if p <= MaxPort then Success((p, p)) else Failure(PortOutOfRange)
  {
    NoSpaceOrDashInDecimal(p);
    ParseIntDecimal(p);
  }

  /** Two decimal ports joined by "-": accepted as `(low, high)` exactly when
      both are at most 65535 and `low <= high`, with the error `parse_range`
      raises otherwise. */
  lemma ParsePortPair(low: nat, high: nat)
    ensures ParseRange(Decimal(low) + "-" + Decimal(high))
            == if low > MaxPort || high > MaxPort then Failure(BoundsOutOfRange)
               else if low > high then Failure(LowAboveHigh)
               else Success((low, high))
  {
    var text := Decimal(low) + "-" + Decimal(high);
    NoSpaceOrDashInDecimal(low);
    NoSpaceOrDashInDecimal(high);
    assert ' ' !in text;
    assert text[|Decimal(low)|] == '-';
    assert Join("-", [Decimal(low), Decimal(high)]) == text;
    SplitJoin([Decimal(low), Decimal(high)], '-');
    ParseIntDecimal(low);
    ParseIntDecimal(high);
  }

  /** Every valid range has a textual form `parse_range` maps back to it. */
  lemma ParseFormatRange(low: nat, high: nat)
    requires low <= high <= MaxPort
    ensures ParseRange(FormatRange(low, high)) == Success((low, high))
  {
    if low == high {
      ParseSinglePort(low);
    } else {
      ParsePortPair(low, high);
    }
  }

  /** Spaces are irrelevant: they are all removed before anything else. */
  lemma ParseRangeIgnoresSpaces(text: string)
    ensures ParseRange(text) == ParseRange(RemoveSpaces(text))
  {
  }

  /** "1-2-3" has too many pieces; "-5" splits into an empty low bound that
      `int()` rejects. */
  lemma ParseRangeRejects()
    ensures ParseRange("1-2-3") == Failure(MalformedRange)
    ensures ParseRange("-5") == Failure(NotAnInteger(""))
  {
  }

  /** A single port that `int()` rejects is reported with the text it was
      given, spaces removed. */
  lemma ParseRangeRejectsNonInteger(text: string)
    requires RemoveSpaces(text) != "" && '-' !in RemoveSpaces(text)
    requires !IsIntLiteral(RemoveSpaces(text))
    ensures ParseRange(text) == Failure(NotAnInteger(RemoveSpaces(text)))
  {
  }

  /** In `low-high`, a bound that `int()` rejects is reported, the low bound
      first, as `int(partedstring[0])` runs before `int(partedstring[1])`. */
  lemma ParseRangeRejectsNonIntegerBound(text: string)
    requires var parts := Split(RemoveSpaces(text), '-');
             |parts| == 2 && (!IsIntLiteral(parts[0]) || !IsIntLiteral(parts[1]))
    ensures var parts := Split(RemoveSpaces(text), '-');
            ParseRange(text)
            == Failure(NotAnInteger(if !IsIntLiteral(parts[0]) then parts[0] else parts[1]))
  {
    var compact := RemoveSpaces(text);
    assert CountChar(compact, '-') == 1;
  }

  /** "8a" is not an integer, so it is rejected before any range check. */
  lemma ParseRangeRejectsLetters()
    ensures ParseRange("8a") == Failure(NotAnInteger("8a"))
  {
    assert "8a"[1] == 'a' && !IsDigit('a');
    ParseRangeRejectsNonInteger("8a");
  }

  /** `int()` accepts leading zeros, so "080" is port 80. */
  lemma ParseRangeLeadingZero()
    ensures ParseRange("080") == Success((80, 80))
  {
    assert Decimal(8) == "8" && Decimal(80) == "80";
    ParseIntLeadingZeros("0", 80);
    assert "0" + Decimal(80) == "080";
  }

  /** `int()` accepts a "+" sign, so "+5" is port 5. */
  lemma ParseRangePlusSign()
    ensures ParseRange("+5") == Success((5, 5))
  {
    ParseIntSign("5");
    assert "+" + "5" == "+5";
  }

  /** Spaces around the numbers are dropped before splitting. */
  lemma ParseRangeSpacesInside()
    ensures ParseRange(" 5 - 9") == Success((5, 9))
  {
    RemoveSpacesExample();
    PortPairExample();
    ParseRangeIgnoresSpaces(" 5 - 9");
  }

  lemma PortPairExample()
    ensures ParseRange("5-9") == Success((5, 9))
  {
    ParsePortPair(5, 9);
    assert Decimal(5) + "-" + Decimal(9) == "5-9";
  }

  /** Worked one character at a time from the end. */
  lemma RemoveSpacesExample()
    ensures RemoveSpaces(" 5 - 9") == "5-9"
  {
    assert "9"[0] == '9' && "9"[1..] == "";
    assert RemoveSpaces("9") == "9";
    assert " 9"[0] == ' ' && " 9"[1..] == "9";
    assert RemoveSpaces(" 9") == "9";
    assert "- 9"[0] == '-' && "- 9"[1..] == " 9";
    assert RemoveSpaces("- 9") == "-9";
    assert " - 9"[0] == ' ' && " - 9"[1..] == "- 9";
    assert RemoveSpaces(" - 9") == "-9";
    assert "5 - 9"[0] == '5' && "5 - 9"[1..] == " - 9";
    assert RemoveSpaces("5 - 9") == "5-9";
    assert " 5 - 9"[0] == ' ' && " 5 - 9"[1..] == "5 - 9";
    assert RemoveSpaces(" 5 - 9") == "5-9";
  }

  // ---------------------------------------------------------------------
  // Scanning

  /** One entry of the result list: `{"port": port, "state": state}`. */
  datatype PortResult = PortResult(port: int, state: string)

  /** The ports of the results, in order. */
  function ResultPorts(results: seq<PortResult>): (ports: seq<int>)
    ensures |ports| == |results|
    ensures forall i :: 0 <= i < |results| ==> ports[i] == results[i].port
  {
    if |results| == 0 then [] else ResultPorts(results[..|results| - 1]) + [results[|results| - 1].port]
  }

  /** The results' ports strictly increase, so no port occurs twice. */
  predicate AscendingPorts(results: seq<PortResult>)
  {
    forall i, j :: 0 <= i < j < |results| ==> results[i].port < results[j].port
  }

  /** `run_scan`: probes `low`, `low + 1`, ..., `high` in turn. `probe`
      stands for `scan_port_state`, the TCP connect attempt. */
  method RunScan(target: string, low: int, high: int, timeout: real, probe: (string, int, real) -> string)
    returns (results: seq<PortResult>)
    ensures |results| == if low <= high then high - low + 1 else 0
    ensures forall i :: 0 <= i < |results| ==> results[i] == PortResult(low + i, probe(target, low + i, timeout))
    ensures AscendingPorts(results)
  {
    results := [];
    var port := low;
    while port < high + 1
      invariant port <= high + 1 || port == low
      invariant |results| == port - low && port >= low
      invariant forall i :: 0 <= i < |results| ==> results[i] == PortResult(low + i, probe(target, low + i, timeout))
    {
      var state := probe(target, port, timeout);
      results := results + [PortResult(port, state)];
      port := port + 1;
    }
  }

  // ---------------------------------------------------------------------
  // Report

  /** Which list of the summary a probe state is put in: anything that is
      neither "open" nor "closed" counts as filtered. */
  datatype Bucket = Open | Closed | Filtered

  function BucketOf(state: string): (b: Bucket)
    ensures b == Open <==> state == "open"
    ensures b == Closed <==> state == "closed"
    ensures b == Filtered <==> state != "open" && state != "closed"
  {
    if state == "open" then Open
    else if state == "closed" then Closed
    else Filtered
  }

  /** Reference definition: the ports of the results whose state falls in
      bucket `b`, in their original order. */
  function PortsIn(results: seq<PortResult>, b: Bucket): seq<int>
  {
    if |results| == 0 then []
    else
      var last := results[|results| - 1];
      PortsIn(results[..|results| - 1], b) + (if BucketOf(last.state) == b then [last.port] else [])
  }

  /** The "summary" object of the report. */
  datatype Summary = Summary(
    scannedPorts: int,
    openCount: nat, open: seq<int>,
    closedCount: nat, closed: seq<int>,
    filteredCount: nat, filtered: seq<int>)

  /** The report written to `scan_results.json`, without its timestamp. */
  datatype Report = Report(target: string, low: int, high: int, timeout: real, summary: Summary, results: seq<PortResult>)

  /** `build_report`: one pass over the results, appending each port to the
      list of its state. */
  method BuildReport(target: string, low: int, high: int, timeout: real, results: seq<PortResult>)
    returns (report: Report)
    ensures report.target == target && report.low == low && report.high == high
    ensures report.timeout == timeout && report.results == results
    ensures report.summary.open == PortsIn(results, Open)
    ensures report.summary.closed == PortsIn(results, Closed)
    ensures report.summary.filtered == PortsIn(results, Filtered)
    ensures report.summary.openCount == |report.summary.open|
    ensures report.summary.closedCount == |report.summary.closed|
    ensures report.summary.filteredCount == |report.summary.filtered|
    ensures report.summary.scannedPorts == high - low + 1
  {
    var open, closed, filtered := [], [], [];
    var k := 0;
    while k < |results|
      invariant k <= |results|
      invariant open == PortsIn(results[..k], Open)
      invariant closed == PortsIn(results[..k], Closed)
      invariant filtered == PortsIn(results[..k], Filtered)
    {
      var r := results[k];
      assert results[..k + 1][..k] == results[..k];
      if r.state == "open" {
        open := open + [r.port];
      } else if r.state == "closed" {
        closed := closed + [r.port];
      } else {
        filtered := filtered + [r.port];
      }
      k := k + 1;
    }
    assert results[..k] == results;
    var summary := Summary(high - low + 1, |open|, open, |closed|, closed, |filtered|, filtered);
    report := Report(target, low, high, timeout, summary, results);
  }

  /** The three lists partition the scanned ports: together they hold every
      result's port exactly as often as the results do, so the three counts
      add up to the number of results. */
  lemma {:induction false} ReportPartitions(results: seq<PortResult>)
    ensures multiset(PortsIn(results, Open)) + multiset(PortsIn(results, Closed))
            + multiset(PortsIn(results, Filtered)) == multiset(ResultPorts(results))
    ensures |PortsIn(results, Open)| + |PortsIn(results, Closed)| + |PortsIn(results, Filtered)| == |results|
  {
    if |results| > 0 {
      var init, last := results[..|results| - 1], results[|results| - 1];
      ReportPartitions(init);
      var b := BucketOf(last.state);
      assert PortsIn(results, b) == PortsIn(init, b) + [last.port];
      forall c: Bucket | c != b
        ensures PortsIn(results, c) == PortsIn(init, c)
      {
      }
      assert multiset(ResultPorts(results)) == multiset(ResultPorts(init)) + multiset{last.port};
    }
  }

  /** A port is in bucket `b`'s list exactly when some result with that port
      has a state in `b`. */
  lemma {:induction false} InPortsIn(results: seq<PortResult>, b: Bucket, p: int)
    ensures p in PortsIn(results, b) <==>
            exists i :: 0 <= i < |results| && results[i].port == p && BucketOf(results[i].state) == b
  {
    if |results| > 0 {
      var init := results[..|results| - 1];
      InPortsIn(init, b, p);
      if exists i :: 0 <= i < |results| && results[i].port == p && BucketOf(results[i].state) == b {
        var i :| 0 <= i < |results| && results[i].port == p && BucketOf(results[i].state) == b;
        if i < |init| {
          assert init[i] == results[i];
        }
      }
      if exists i :: 0 <= i < |init| && init[i].port == p && BucketOf(init[i].state) == b {
        var i :| 0 <= i < |init| && init[i].port == p && BucketOf(init[i].state) == b;
        assert results[i] == init[i];
      }
    }
  }

  /** On a scan's results, whose ports are distinct, each port lands in
      exactly one list: the one its own state selects. */
  lemma EachPortInOneList(results: seq<PortResult>, k: int)
    requires AscendingPorts(results)
    requires 0 <= k < |results|
    ensures forall b: Bucket :: results[k].port in PortsIn(results, b) <==> b == BucketOf(results[k].state)
  {
    var p := results[k].port;
    forall b: Bucket
      ensures p in PortsIn(results, b) <==> b == BucketOf(results[k].state)
    {
      InPortsIn(results, b, p);
      if p in PortsIn(results, b) {
        var i :| 0 <= i < |results| && results[i].port == p && BucketOf(results[i].state) == b;
      }
    }
  }

  /** `run_scan` followed by `build_report` on a range `parse_range`
      accepted: the report is for that range, its results are the probes of
      its ports in order, and its lists partition them by state. */
  method ScanRange(target: string, low: int, high: int, timeout: real, probe: (string, int, real) -> string)
    returns (report: Report)
    requires low <= high
    ensures report.target == target && report.low == low && report.high == high && report.timeout == timeout
    ensures |report.results| == high - low + 1
    ensures forall i :: 0 <= i < |report.results| ==> report.results[i] == PortResult(low + i, probe(target, low + i, timeout))
    ensures report.summary.open == PortsIn(report.results, Open)
    ensures report.summary.closed == PortsIn(report.results, Closed)
    ensures report.summary.filtered == PortsIn(report.results, Filtered)
    ensures var s := report.summary;
            s.openCount + s.closedCount + s.filteredCount == s.scannedPorts == |report.results|
  {
    var results := RunScan(target, low, high, timeout, probe);
    report := BuildReport(target, low, high, timeout, results);
    ReportPartitions(results);
  }

  /** End to end: `parse_range`'s error passes through unchanged; otherwise
      the report is the scan of exactly the range it returned. */
  method ScanAndReport(target: string, text: string, timeout: real, probe: (string, int, real) -> string)
    returns (outcome: Result<Report, RangeError>)
    ensures outcome.Failure? <==> ParseRange(text).Failure?
    ensures ParseRange(text).Failure? ==> outcome == Failure(ParseRange(text).error)
    ensures outcome.Success? ==>
              var r := outcome.value;
              && ParseRange(text) == Success((r.low, r.high))
              && r.target == target && r.timeout == timeout
              && |r.results| == r.high - r.low + 1
              && (forall i :: 0 <= i < |r.results| ==> r.results[i] == PortResult(r.low + i, probe(target, r.low + i, timeout)))
              && r.summary.open == PortsIn(r.results, Open)
              && r.summary.closed == PortsIn(r.results, Closed)
              && r.summary.filtered == PortsIn(r.results, Filtered)
    ensures outcome.Success? ==>
              var s := outcome.value.summary;
              s.openCount + s.closedCount + s.filteredCount == s.scannedPorts == |outcome.value.results|
  {
    var parsed := ParseRange(text);
    if parsed.Failure? {
      outcome := Failure(parsed.error);
    } else {
      var low, high := parsed.value.0, parsed.value.1;
      assert low <= high;
      var report := ScanRange(target, low, high, timeout, probe);
      outcome := Success(report);
    }
  }
}

=== FILE: sniffer.dfy ===
/** One step of the capture loop in `sniffer.py`: a raw link-layer frame is
    decoded (Ethernet II, then IPv4 after RFC 791 section 3.1, then the
    source and destination ports that open both the TCP header of RFC 9293
    section 3.1 and the UDP header of RFC 768) and rendered as one log line.
    The decoder is modelled as the script writes it: there is no check on the
    IPv4 header length field, and frames shorter than an Ethernet header
    produce no line at all. */
module Sniffer {
  import opened Wrappers
  import opened Bytes
  import opened Text

  const EthernetHeaderLength: nat := 14
  const Ipv4MinHeaderLength: nat := 20
  const EtherTypeIpv4: u16 := 0x0800
  const ProtoTcp: byte := 6
  const ProtoUdp: byte := 17

  // ---------------------------------------------------------------------
  // Address rendering

  /** Every octet of `raw` as two lower-case hexadecimal digits. */
  function HexOctets(raw: seq<byte>): (parts: seq<string>)
    ensures |parts| == |raw|
    ensures forall i :: 0 <= i < |parts| ==> parts[i] == Hex2(raw[i])
  {
    seq(|raw|, i requires 0 <= i < |raw| => Hex2(raw[i]))
  }

  /** Every octet of `raw` in decimal. */
  function DecimalOctets(raw: seq<byte>): (parts: seq<string>)
    ensures |parts| == |raw|
    ensures forall i :: 0 <= i < |parts| ==> parts[i] == Decimal(raw[i])
  {
    seq(|raw|, i requires 0 <= i < |raw| => Decimal(raw[i]))
  }

  /** `mac_addr`: the octets as two-digit lower-case hexadecimal, joined by
      ":". Splitting at the colons gives back one two-digit piece per octet. */
  function MacAddr(raw: seq<byte>): (r: string)
    ensures |raw| >= 1 ==> |r| == 3 * |raw| - 1
    ensures |raw| == 0 ==> r == ""
  {
    var parts := HexOctets(raw);
    if |raw| >= 1 then
      JoinLength(":", parts, 2);
      Join(":", parts)
    else Join(":", parts)
  }

  /** `ipv4_addr`: the octets in decimal, joined by ".". Each octet takes one
      to three digits, so four octets take 7 to 15 characters. */
  function Ipv4Addr(raw: seq<byte>): (r: string)
    ensures |raw| == 0 ==> r == ""
    ensures |raw| >= 1 ==> 2 * |raw| - 1 <= |r| <= 4 * |raw| - 1
  {
    DecimalOctetsLength(raw);
    if |raw| >= 1 then
      JoinTotalLength(".", DecimalOctets(raw));
      Join(".", DecimalOctets(raw))
    else Join(".", DecimalOctets(raw))
  }

  /** An octet has one to three decimal digits. */
  lemma DecimalOctetWidth(b: byte)
    ensures 1 <= |Decimal(b)| <= 3
  {
    if b >= 10 {
      assert |Decimal(b)| == |Decimal(b / 10)| + 1;
      if b / 10 >= 10 {
        assert |Decimal(b / 10)| == |Decimal(b / 100)| + 1;
      }
    }
  }

  lemma {:induction false} DecimalOctetsLength(raw: seq<byte>)
    ensures |raw| <= TotalLength(DecimalOctets(raw)) <= 3 * |raw|
  {
    if |raw| > 0 {
      DecimalOctetsLength(raw[1..]);
      DecimalOctetWidth(raw[0]);
      assert DecimalOctets(raw)[1..] == DecimalOctets(raw[1..]);
    }
  }

  /** Reads back a colon-separated list of two-digit lower-case hexadecimal octets. */
  function ParseMac(s: string): (r: Option<seq<byte>>)
    ensures r.Some? ==> |r.value| == CountChar(s, ':') + 1
  {
    var parts := Split(s, ':');
    if forall i :: 0 <= i < |parts| ==> ParseHex2(parts[i]).Some? then
      Some(seq(|parts|, i requires 0 <= i < |parts| => ParseHex2(parts[i]).value))
    else None
  }

  /** Reads back a dot-separated list of decimal octets written without leading zeros. */
  function ParseDotted(s: string): (r: Option<seq<byte>>)
    ensures r.Some? ==> |r.value| == CountChar(s, '.') + 1
  {
    var parts := Split(s, '.');
    if forall i :: 0 <= i < |parts| ==> ParseOctet(parts[i]).Some? then
      Some(seq(|parts|, i requires 0 <= i < |parts| => ParseOctet(parts[i]).value))
    else None
  }

  /** A hardware address renders as 17 characters: six octets and five colons. */
  lemma MacAddrLength(raw: seq<byte>)
    requires |raw| == 6
    ensures |MacAddr(raw)| == 17
    ensures CountChar(MacAddr(raw), ':') == 5
  {
    SplitJoin(HexOctets(raw), ':');
  }

  /** `MacAddr` is a bijection from non-empty octet strings onto the strings
      `ParseMac` accepts: parsing the rendering gives the octets back, and
      rendering what the parser returns gives the parsed string back. */
  lemma MacAddrRoundTrip(raw: seq<byte>, s: string)
    requires |raw| >= 1
    ensures ParseMac(MacAddr(raw)) == Some(raw)
    ensures ParseMac(s) == Some(raw) ==> MacAddr(raw) == s
  {
    var parts := HexOctets(raw);
    SplitJoin(parts, ':');
    forall i | 0 <= i < |parts|
      ensures ParseHex2(parts[i]) == Some(raw[i])
    {
      Hex2RoundTrip(raw[i], "");
    }
    assert ParseMac(MacAddr(raw)).value == raw;
    if ParseMac(s) == Some(raw) {
      var pieces := Split(s, ':');
      forall i | 0 <= i < |pieces|
        ensures pieces[i] == parts[i]
      {
        Hex2RoundTrip(raw[i], pieces[i]);
      }
      assert pieces == parts;
      JoinSplit(s, ':');
    }
  }

  /** An IPv4 address renders as four decimal numbers, each the value of its
      octet and so in 0..255, separated by exactly three dots. */
  lemma Ipv4AddrShape(raw: seq<byte>)
    requires |raw| == 4
    ensures CountChar(Ipv4Addr(raw), '.') == 3
    ensures Split(Ipv4Addr(raw), '.') == DecimalOctets(raw)
    ensures forall i :: 0 <= i < 4 ==> DigitsValue(DecimalOctets(raw)[i]) == raw[i] < 256
  {
    DotFreeOctets(raw);
    SplitJoin(DecimalOctets(raw), '.');
    forall i | 0 <= i < 4
      ensures DigitsValue(DecimalOctets(raw)[i]) == raw[i]
    {
      DecimalRoundTrip(raw[i]);
    }
  }

  lemma DotFreeOctets(raw: seq<byte>)
    ensures forall i :: 0 <= i < |raw| ==> '.' !in DecimalOctets(raw)[i]
  {
  }

  /** `Ipv4Addr` is a bijection from non-empty octet strings onto the strings
      `ParseDotted` accepts. */
  lemma Ipv4AddrRoundTrip(raw: seq<byte>, s: string)
    requires |raw| >= 1
    ensures ParseDotted(Ipv4Addr(raw)) == Some(raw)
    ensures ParseDotted(s) == Some(raw) ==> Ipv4Addr(raw) == s
  {
    var parts := DecimalOctets(raw);
    DotFreeOctets(raw);
    SplitJoin(parts, '.');
    forall i | 0 <= i < |parts|
      ensures ParseOctet(parts[i]) == Some(raw[i])
    {
      OctetRoundTrip(raw[i], "");
    }
    assert ParseDotted(Ipv4Addr(raw)).value == raw;
    if ParseDotted(s) == Some(raw) {
      var pieces := Split(s, '.');
      forall i | 0 <= i < |pieces|
        ensures pieces[i] == parts[i]
      {
        OctetRoundTrip(raw[i], pieces[i]);
      }
      assert pieces == parts;
      JoinSplit(s, '.');
    }
  }

  // ---------------------------------------------------------------------
  // Decoded headers

  /** The 14-byte Ethernet II header. */
  datatype EthernetHeader = EthernetHeader(dst: seq<byte>, src: seq<byte>, etherType: u16)

  /** The IPv4 fields the script reads: the header length in bytes (IHL times
      four), the Protocol byte and the two addresses. */
  datatype Ipv4Header = Ipv4Header(headerLength: nat, protocol: byte, srcAddr: seq<byte>, dstAddr: seq<byte>)

  /** The first two 16-bit fields of a TCP or UDP header. */
  datatype Ports = Ports(src: u16, dst: u16)

  /** What follows the Ethernet header: a decoded IPv4 header (with the ports
      when the script reads them), or the frame length reported for every
      other frame. */
  datatype Network =
    | Ipv4(header: Ipv4Header, ports: Option<Ports>)
    | NonIpv4(frameLength: nat)

  datatype DecodedFrame = DecodedFrame(ethernet: EthernetHeader, network: Network)

  /** The header length in bytes claimed by the IHL nibble of the first IPv4
      header byte; the script does not check it against the minimum of 20. */
  function HeaderLengthOf(verIhl: byte): (n: nat)
    ensures n % 4 == 0 && n <= 60
  {
    (verIhl % 16) * 4
  }

  /** The fixed 20-byte IPv4 header at offset 14 (the script's `ip_header`). */
  function DecodeIpv4(frame: seq<byte>): (h: Ipv4Header)
    requires |frame| >= EthernetHeaderLength + Ipv4MinHeaderLength
    ensures h.headerLength == (frame[14] % 16) * 4
    ensures h.protocol == frame[23]
    ensures h.srcAddr == frame[26..30] && h.dstAddr == frame[30..34]
  {
    var ipHeader := frame[14..34];
    Ipv4Header(HeaderLengthOf(ipHeader[0]), ipHeader[9], ipHeader[12..16], ipHeader[16..20])
  }

  /** The port pair at the transport offset `14 + ihl`, present only for TCP
      and UDP when the frame holds four bytes there. */
  function DecodePorts(frame: seq<byte>, ip: Ipv4Header): (p: Option<Ports>)
    requires ip.headerLength <= 60
    ensures p.Some? <==> (ip.protocol == ProtoTcp || ip.protocol == ProtoUdp)
                         && |frame| >= EthernetHeaderLength + ip.headerLength + 4
    ensures p.Some? ==> (p.value.src == ReadU16(frame, 14 + ip.headerLength)
                         && p.value.dst == ReadU16(frame, 16 + ip.headerLength))
  {
    var offset := EthernetHeaderLength + ip.headerLength;
    if (ip.protocol == ProtoTcp || ip.protocol == ProtoUdp) && |frame| >= offset + 4 then
      var l4 := frame[offset..offset + 4];
      Some(Ports(ReadU16(l4, 0), ReadU16(l4, 2)))
    else None
  }

  /** The decoding half of one loop iteration: `None` for a frame the loop
      skips, otherwise the headers the script extracts. */
  function Decode(frame: seq<byte>): (r: Option<DecodedFrame>)
    ensures r.None? <==> |frame| < EthernetHeaderLength
    ensures r.Some? ==> (r.value.ethernet.dst == frame[0..6]
                         && r.value.ethernet.src == frame[6..12]
                         && r.value.ethernet.etherType == (frame[12] as int) * 256 + (frame[13] as int))
    ensures r.Some? ==>
              (r.value.network.Ipv4? <==> r.value.ethernet.etherType == EtherTypeIpv4 && |frame| >= 34)
    ensures r.Some? && r.value.network.NonIpv4? ==> r.value.network.frameLength == |frame|
  {
    if |frame| < EthernetHeaderLength then None
    else
      var eth := EthernetHeader(frame[0..6], frame[6..12], ReadU16(frame, 12));
      if eth.etherType == EtherTypeIpv4 && |frame| >= EthernetHeaderLength + Ipv4MinHeaderLength then
        var ip := DecodeIpv4(frame);
        Some(DecodedFrame(eth, Ipv4(ip, DecodePorts(frame, ip))))
      else
        Some(DecodedFrame(eth, NonIpv4(|frame|)))
  }

  // ---------------------------------------------------------------------
  // Reporting

  /** The ` ports {src}->{dst}` suffix, empty when no ports were read. The
      numbers can be read back from it. */
  function PortsSuffix(ports: Option<Ports>): (r: string)
    ensures r == "" <==> ports.None?
    ensures ports.Some? ==> ParsePortsSuffix(r) == ports
  {
    match ports
    case Some(p) =>
      PortsSuffixParses(p);
      " ports " + Decimal(p.src) + "->" + Decimal(p.dst)
    case None => ""
  }

  lemma PortsSuffixShape(p: Ports)
    ensures PortsSuffix(Some(p)) == " ports " + Decimal(p.src) + "->" + Decimal(p.dst)
  {
  }

  lemma PortsSuffixParses(p: Ports)
    ensures ParsePortsSuffix(" ports " + Decimal(p.src) + "->" + Decimal(p.dst)) == Some(p)
  {
    var a, b := Decimal(p.src), Decimal(p.dst);
    var r := " ports " + a + "->" + b;
    assert r[..7] == " ports ";
    assert r[7..] == a + ['-'] + (">" + b);
    SplitAtSep(a, '-', ">" + b);
    SplitNoSep(">" + b, '-');
    assert (">" + b)[1..] == b;
    ParseIntDecimal(p.src);
    ParseIntDecimal(p.dst);
  }

  /** Reads ` ports {src}->{dst}` back into the two port numbers. */
  function ParsePortsSuffix(s: string): Option<Ports>
  {
    if |s| >= 7 && s[..7] == " ports " then
      var halves := Split(s[7..], '-');
      if |halves| == 2 && |halves[1]| >= 1 && halves[1][0] == '>' then
        match (ParseInt(halves[0]), ParseInt(halves[1][1..]))
        case (Some(a), Some(b)) =>
          if 0 <= a < 0x1_0000 && 0 <= b < 0x1_0000 then Some(Ports(a, b)) else None
        case _ => None
      else None
    else None
  }

  /** Where the fields of a line sit when both hardware addresses have six
      octets: the source address at `|ts| + 1`, the destination address at
      `|ts| + 22`, each 17 characters long. */
  lemma {:induction false} MacFields(ts: string, src: seq<byte>, dst: seq<byte>, tail: string)
    ensures var r := ts + " " + MacAddr(src) + " -> " + MacAddr(dst) + tail;
            |src| == 6 && |dst| == 6 ==>
            && |r| == |ts| + 39 + |tail|
            && r[..|ts| + 1] == ts + " "
            && ParseMac(r[|ts| + 1..|ts| + 18]) == Some(src)
            && r[|ts| + 18..|ts| + 22] == " -> "
            && ParseMac(r[|ts| + 22..|ts| + 39]) == Some(dst)
            && r[|ts| + 39..] == tail
  {
    if |src| == 6 && |dst| == 6 {
      var m1, m2 := MacAddr(src), MacAddr(dst);
      var r := ts + " " + m1 + " -> " + m2 + tail;
      MacAddrRoundTrip(src, "");
      MacAddrRoundTrip(dst, "");
      assert r[|ts| + 1..|ts| + 18] == m1;
      assert r[|ts| + 22..|ts| + 39] == m2;
    }
  }

  /** What follows the two hardware addresses on a line: the IPv4 fields,
      or the EtherType in hexadecimal and the frame length. */
  function NetworkPart(d: DecodedFrame): (tail: string)
    ensures d.network.Ipv4? ==> |tail| >= 6 && tail[..6] == " IPv4 "
    ensures d.network.NonIpv4? ==> |tail| == 22 + |Decimal(d.network.frameLength)| && tail[..13] == " ethertype=0x"
  {
    match d.network
    case Ipv4(ip, ports) =>
      " IPv4 " + Ipv4Addr(ip.srcAddr) + " -> " + Ipv4Addr(ip.dstAddr)
      + " proto=" + Decimal(ip.protocol) + PortsSuffix(ports)
    case NonIpv4(len) =>
      " ethertype=0x" + Hex4(d.ethernet.etherType) + " len=" + Decimal(len)
  }

  /** On the non-IPv4 line the EtherType reads back from the four digits
      after `0x`, and the length follows `len=`. */
  lemma NetworkPartFields(d: DecodedFrame)
    requires d.network.NonIpv4?
    ensures var tail := NetworkPart(d);
            && ParseHex4(tail[13..17]) == Some(d.ethernet.etherType)
            && tail[17..] == " len=" + Decimal(d.network.frameLength)
  {
    var h := Hex4(d.ethernet.etherType);
    var tail := NetworkPart(d);
    assert tail == " ethertype=0x" + h + " len=" + Decimal(d.network.frameLength);
    assert tail[13..17] == h;
    Hex4RoundTrip(d.ethernet.etherType);
  }

  /** The line printed for a decoded frame, after the timestamp `ts`: the
      source and destination hardware addresses, then the network part. */
  function FormatLine(ts: string, d: DecodedFrame): (r: string)
    ensures StartsWith(r, ts + " ")
    ensures |d.ethernet.src| == 6 && |d.ethernet.dst| == 6 ==> |r| == |ts| + 39 + |NetworkPart(d)|
  {
    var r := ts + " " + MacAddr(d.ethernet.src) + " -> " + MacAddr(d.ethernet.dst) + NetworkPart(d);
    assert r[..|ts| + 1] == ts + " ";
    r
  }

  lemma LineOfDecoded(ts: string, d: DecodedFrame)
    ensures FormatLine(ts, d) == ts + " " + MacAddr(d.ethernet.src) + " -> " + MacAddr(d.ethernet.dst) + NetworkPart(d)
  {
  }

  /** Where the hardware addresses sit on a line whose addresses have six
      octets: they read back from positions `|ts| + 1` and `|ts| + 22`, and
      the network part starts at `|ts| + 39`. */
  lemma LineMacFields(ts: string, d: DecodedFrame)
    requires |d.ethernet.src| == 6 && |d.ethernet.dst| == 6
    ensures var r := FormatLine(ts, d);
            && |r| == |ts| + 39 + |NetworkPart(d)|
            && ParseMac(r[|ts| + 1..|ts| + 18]) == Some(d.ethernet.src)
            && r[|ts| + 18..|ts| + 22] == " -> "
            && ParseMac(r[|ts| + 22..|ts| + 39]) == Some(d.ethernet.dst)
            && r[|ts| + 39..] == NetworkPart(d)
  {
    LineOfDecoded(ts, d);
    MacFields(ts, d.ethernet.src, d.ethernet.dst, NetworkPart(d));
  }

  /** On the non-IPv4 line the EtherType reads back from the four digits at
      `|ts| + 52`, and the length follows `len=`. */
  lemma LineFields(ts: string, d: DecodedFrame)
    requires |d.ethernet.src| == 6 && |d.ethernet.dst| == 6 && d.network.NonIpv4?
    ensures var r := FormatLine(ts, d);
            && |r| >= |ts| + 56
            && r[|ts| + 39..|ts| + 52] == " ethertype=0x"
            && ParseHex4(r[|ts| + 52..|ts| + 56]) == Some(d.ethernet.etherType)
            && r[|ts| + 56..] == " len=" + Decimal(d.network.frameLength)
  {
    var r, tail := FormatLine(ts, d), NetworkPart(d);
    LineMacFields(ts, d);
    NetworkPartFields(d);
    assert r[|ts| + 39..|ts| + 52] == tail[..13];
    assert r[|ts| + 52..|ts| + 56] == tail[13..17];
    assert r[|ts| + 56..] == tail[17..];
  }

  /** The IPv4 line has ` IPv4 ` right after the hardware addresses. */
  lemma Ipv4LineMarker(ts: string, d: DecodedFrame)
    requires |d.ethernet.src| == 6 && |d.ethernet.dst| == 6 && d.network.Ipv4?
    ensures var r := FormatLine(ts, d);
            |r| >= |ts| + 45 && r[|ts| + 39..|ts| + 45] == " IPv4 "
  {
    var r, tail := FormatLine(ts, d), NetworkPart(d);
    LineMacFields(ts, d);
    assert r[|ts| + 39..|ts| + 45] == tail[..6];
  }

  /** One iteration of the capture loop on a received frame: the line it
      prints, or `None` when it skips the frame. `ts` is the wall-clock
      timestamp the script takes for the frame. */
  function DecodeFrame(ts: string, frame: seq<byte>): (line: Option<string>)
    ensures line.None? <==> |frame| < EthernetHeaderLength
    ensures line.Some? ==> StartsWith(line.value, ts)
  {
    match Decode(frame)
    case None => None
    case Some(d) =>
      var l := FormatLine(ts, d);
      assert l[..|ts|] == ts;
      Some(l)
  }

  /** The port pair the script reads from a frame, stated on the frame's
      bytes: TCP or UDP, and four bytes at `14 + ihl`. */
  function FramePorts(frame: seq<byte>): (p: Option<Ports>)
    requires |frame| >= 34
    ensures p == DecodePorts(frame, DecodeIpv4(frame))
  {
    var ihl := HeaderLengthOf(frame[14]);
    if (frame[23] == ProtoTcp || frame[23] == ProtoUdp) && |frame| >= 14 + ihl + 4 then
      Some(Ports(ReadU16(frame, 14 + ihl), ReadU16(frame, 16 + ihl)))
    else None
  }

  /** The line printed for a frame of at least 14 bytes that is not decoded
      as IPv4, spelled out on the frame's bytes: the two hardware addresses,
      then the EtherType and the frame length. */
  lemma LineOfOtherFrame(ts: string, frame: seq<byte>)
    requires |frame| >= EthernetHeaderLength && !IsIpv4Frame(frame)
    ensures DecodeFrame(ts, frame)
            == Some(ts + " " + MacAddr(frame[6..12]) + " -> " + MacAddr(frame[0..6])
                    + (" ethertype=0x" + Hex4(ReadU16(frame, 12)) + " len=" + Decimal(|frame|)))
  {
    Ipv4BranchIff(frame);
    var d := Decode(frame).value;
    assert d == DecodedFrame(EthernetHeader(frame[0..6], frame[6..12], ReadU16(frame, 12)), NonIpv4(|frame|));
    assert DecodeFrame(ts, frame) == Some(FormatLine(ts, d));
    LineOfDecoded(ts, d);
  }

  /** The line printed for an IPv4 frame, spelled out on the frame's bytes:
      the two hardware addresses, then the IPv4 addresses, the protocol and
      the ports when the script reads them. */
  lemma LineOfIpv4Frame(ts: string, frame: seq<byte>)
    requires IsIpv4Frame(frame)
    ensures DecodeFrame(ts, frame)
            == Some(ts + " " + MacAddr(frame[6..12]) + " -> " + MacAddr(frame[0..6])
                    + (" IPv4 " + Ipv4Addr(frame[26..30]) + " -> " + Ipv4Addr(frame[30..34])
                       + " proto=" + Decimal(frame[23]) + PortsSuffix(FramePorts(frame))))
  {
    Ipv4BranchIff(frame);
    var d := Decode(frame).value;
    assert d == DecodedFrame(EthernetHeader(frame[0..6], frame[6..12], ReadU16(frame, 12)),
                             Ipv4(DecodeIpv4(frame), FramePorts(frame)));
    assert DecodeFrame(ts, frame) == Some(FormatLine(ts, d));
    LineOfDecoded(ts, d);
  }

  /** What can be read back from the line of a frame: both hardware
      addresses, and on the non-IPv4 line the EtherType from the four
      hexadecimal digits after `0x` and the frame length after `len=`. */
  lemma LineFieldsOfFrame(ts: string, frame: seq<byte>)
    requires |frame| >= EthernetHeaderLength
    ensures var line := DecodeFrame(ts, frame).value;
            && |line| >= |ts| + 45
            && line[..|ts| + 1] == ts + " "
            && ParseMac(line[|ts| + 1..|ts| + 18]) == Some(frame[6..12])
            && ParseMac(line[|ts| + 22..|ts| + 39]) == Some(frame[0..6])
    ensures var line := DecodeFrame(ts, frame).value;
            !IsIpv4Frame(frame) ==>
              && |line| >= |ts| + 56
              && line[|ts| + 39..|ts| + 52] == " ethertype=0x"
              && ParseHex4(line[|ts| + 52..|ts| + 56]) == Some((frame[12] as int) * 256 + (frame[13] as int))
              && line[|ts| + 56..] == " len=" + Decimal(|frame|)
    ensures var line := DecodeFrame(ts, frame).value;
            IsIpv4Frame(frame) ==> line[|ts| + 39..|ts| + 45] == " IPv4 "
  {
    var d := Decode(frame).value;
    Ipv4BranchIff(frame);
    assert DecodeFrame(ts, frame).value == FormatLine(ts, d);
    LineMacFields(ts, d);
    if IsIpv4Frame(frame) {
      Ipv4LineMarker(ts, d);
    } else {
      LineFields(ts, d);
    }
  }

  // ---------------------------------------------------------------------
  // Properties of the decoder

  /** Exactly one line per frame of at least 14 bytes, none for a shorter
      frame, and the line has no line break unless the timestamp has one. */
  lemma OneLinePerFrame(ts: string, frame: seq<byte>)
    requires '\n' !in ts
    ensures |frame| < EthernetHeaderLength ==> DecodeFrame(ts, frame) == None
    ensures |frame| >= EthernetHeaderLength ==> DecodeFrame(ts, frame).Some? && '\n' !in DecodeFrame(ts, frame).value
  {
    if |frame| >= EthernetHeaderLength {
      NoBreakInLine(ts, Decode(frame).value);
    }
  }

  lemma NoBreakInLine(ts: string, d: DecodedFrame)
    requires '\n' !in ts
    ensures '\n' !in FormatLine(ts, d)
  {
    NoBreakInMac(d.ethernet.src);
    NoBreakInMac(d.ethernet.dst);
    NoBreakInNetworkPart(d);
    var r := FormatLine(ts, d);
    assert r == ts + " " + MacAddr(d.ethernet.src) + " -> " + MacAddr(d.ethernet.dst) + NetworkPart(d);
  }

  lemma NoBreakInNetworkPart(d: DecodedFrame)
    ensures '\n' !in NetworkPart(d)
  {
    match d.network
    case Ipv4(ip, ports) =>
      NoBreakInIpv4Fields(ip, ports);
    case NonIpv4(len) =>
      NoBreakInDecimal(len);
      NoBreakInHex4(d.ethernet.etherType);
  }

  lemma NoBreakInIpv4Fields(ip: Ipv4Header, ports: Option<Ports>)
    ensures '\n' !in " IPv4 " + Ipv4Addr(ip.srcAddr) + " -> " + Ipv4Addr(ip.dstAddr)
                      + " proto=" + Decimal(ip.protocol) + PortsSuffix(ports)
  {
    var a, b := Ipv4Addr(ip.srcAddr), Ipv4Addr(ip.dstAddr);
    var proto, suffix := Decimal(ip.protocol), PortsSuffix(ports);
    NoBreakInIpv4(ip.srcAddr);
    NoBreakInIpv4(ip.dstAddr);
    NoBreakInDecimal(ip.protocol);
    NoBreakInPorts(ports);
    var s1 := " IPv4 " + a;
    assert '\n' !in s1;
    var s2 := s1 + " -> " + b;
    assert '\n' !in s2;
    var s3 := s2 + " proto=" + proto;
    assert '\n' !in s3;
    assert '\n' !in s3 + suffix;
  }

  lemma NoBreakInPorts(ports: Option<Ports>)
    ensures '\n' !in PortsSuffix(ports)
  {
    if ports.Some? {
      NoBreakInDecimal(ports.value.src);
      NoBreakInDecimal(ports.value.dst);
    }
  }

  lemma NoBreakInHex4(v: u16)
    ensures '\n' !in Hex4(v)
  {
    var h := Hex4(v);
    assert !IsHexDigit('\n');
    assert forall i :: 0 <= i < |h| ==> h[i] != '\n';
  }

  lemma NoBreakInDecimal(n: nat)
    ensures '\n' !in Decimal(n)
  {
  }

  lemma NoBreakInMac(raw: seq<byte>)
    ensures '\n' !in MacAddr(raw)
  {
    JoinAvoids('\n', ":", HexOctets(raw));
  }

  lemma NoBreakInIpv4(raw: seq<byte>)
    ensures '\n' !in Ipv4Addr(raw)
  {
    forall i | 0 <= i < |raw|
      ensures '\n' !in DecimalOctets(raw)[i]
    {
      NoBreakInDecimal(raw[i]);
    }
    JoinAvoids('\n', ".", DecimalOctets(raw));
  }

  /** The Ethernet header decodes to the two addresses and the EtherType
      that were written into it, whatever follows it. */
  lemma EthernetRoundTrip(dst: seq<byte>, src: seq<byte>, etherType: u16, payload: seq<byte>)
    requires |dst| == 6 && |src| == 6
    ensures Decode(dst + src + EncodeU16(etherType) + payload).Some?
    ensures Decode(dst + src + EncodeU16(etherType) + payload).value.ethernet
            == EthernetHeader(dst, src, etherType)
  {
  }

  /** A frame the IPv4 branch decodes: IPv4 EtherType and at least 34 bytes. */
  predicate IsIpv4Frame(frame: seq<byte>)
  {
    |frame| >= 34 && frame[12] == 0x08 && frame[13] == 0x00
  }

  /** The IPv4 branch is taken exactly for an IPv4 EtherType on a frame of at
      least 34 bytes; a shorter IPv4 frame is reported like any other
      EtherType, with its length. */
  lemma Ipv4BranchIff(frame: seq<byte>)
    requires |frame| >= EthernetHeaderLength
    ensures Decode(frame).value.network.Ipv4? <==> IsIpv4Frame(frame)
    ensures !IsIpv4Frame(frame) ==> Decode(frame).value.network == NonIpv4(|frame|)
  {
  }

  /** Port round trip: two 16-bit values written big-endian at the transport
      offset `14 + ihl` of a TCP or UDP frame decode to the same pair. The
      written bytes must not overwrite the IPv4 header the offset is read
      from, which holds when the header length is at least 20. */
  lemma PortsRoundTrip(frame: seq<byte>, src: u16, dst: u16, rest: seq<byte>)
    requires IsIpv4Frame(frame)
    requires frame[23] == ProtoTcp || frame[23] == ProtoUdp
    requires Ipv4MinHeaderLength <= HeaderLengthOf(frame[14])
    requires EthernetHeaderLength + HeaderLengthOf(frame[14]) <= |frame|
    ensures var off := EthernetHeaderLength + HeaderLengthOf(frame[14]);
            var written := frame[..off] + EncodeU16(src) + EncodeU16(dst) + rest;
            Decode(written).Some? && Decode(written).value.network == Ipv4(DecodeIpv4(frame), Some(Ports(src, dst)))
  {
  }

  /** The header length is not range-checked: when the IHL nibble claims
      fewer than 20 bytes, the bytes read as ports lie inside the fixed IPv4
      header itself (for IHL 0 they are the version/IHL, TOS and total-length
      bytes). */
  lemma ShortHeaderReadsPortsInsideIpv4(frame: seq<byte>)
    requires IsIpv4Frame(frame)
    requires frame[23] == ProtoTcp || frame[23] == ProtoUdp
    requires HeaderLengthOf(frame[14]) < Ipv4MinHeaderLength
    ensures Decode(frame).value.network.ports.Some?
    ensures var ihl := HeaderLengthOf(frame[14]);
            Decode(frame).value.network.ports.value
            == Ports(ReadU16(frame, 14 + ihl), ReadU16(frame, 16 + ihl))
            && 14 + ihl + 4 <= EthernetHeaderLength + Ipv4MinHeaderLength
  {
    Ipv4BranchIff(frame);
  }

  /** Scenario: a 14-byte frame with the IPv4 EtherType and nothing after it
      takes the non-IPv4 branch. */
  lemma ScenarioShortIpv4()
    ensures var frame: seq<byte> := [0, 0, 0, 0, 0, 1, 0, 0, 0, 0, 0, 2, 0x08, 0x00];
            Decode(frame) == Some(DecodedFrame(
              EthernetHeader([0, 0, 0, 0, 0, 1], [0, 0, 0, 0, 0, 2], 0x0800), NonIpv4(14)))
  {
    var frame: seq<byte> := [0, 0, 0, 0, 0, 1, 0, 0, 0, 0, 0, 2, 0x08, 0x00];
    assert frame[0..6] == [0, 0, 0, 0, 0, 1];
    assert frame[6..12] == [0, 0, 0, 0, 0, 2];
  }

  /** Scenario: the line printed for that 14-byte frame, field by field. */
  lemma ScenarioShortIpv4Line(ts: string)
    ensures DecodeFrame(ts, [0, 0, 0, 0, 0, 1, 0, 0, 0, 0, 0, 2, 0x08, 0x00])
            == Some(ts + " " + "00:00:00:00:00:02" + " -> " + "00:00:00:00:00:01"
                    + (" ethertype=0x" + "0800" + " len=" + "14"))
  {
    ScenarioShortIpv4();
    ScenarioShortIpv4Format(ts);
  }

  lemma ScenarioShortIpv4Format(ts: string)
    ensures FormatLine(ts, DecodedFrame(EthernetHeader([0, 0, 0, 0, 0, 1], [0, 0, 0, 0, 0, 2], 0x0800), NonIpv4(14)))
            == ts + " " + "00:00:00:00:00:02" + " -> " + "00:00:00:00:00:01"
               + (" ethertype=0x" + "0800" + " len=" + "14")
  {
    var d := DecodedFrame(EthernetHeader([0, 0, 0, 0, 0, 1], [0, 0, 0, 0, 0, 2], 0x0800), NonIpv4(14));
    ScenarioMacRendering(1);
    ScenarioMacRendering(2);
    assert DigitChar(1) == '1' && DigitChar(2) == '2';
    ScenarioEtherTypeRendering();
    assert NetworkPart(d) == " ethertype=0x" + "0800" + " len=" + "14";
    LineFromPieces(ts, d, "00:00:00:00:00:02", "00:00:00:00:00:01", " ethertype=0x" + "0800" + " len=" + "14");
  }

  lemma LineFromPieces(ts: string, d: DecodedFrame, src: string, dst: string, tail: string)
    requires src == MacAddr(d.ethernet.src) && dst == MacAddr(d.ethernet.dst) && tail == NetworkPart(d)
    ensures FormatLine(ts, d) == ts + " " + src + " -> " + dst + tail
  {
    LineOfDecoded(ts, d);
  }

  /** Scenario: EtherType 0x0800 and length 14 as the non-IPv4 line prints them. */
  lemma ScenarioEtherTypeRendering()
    ensures Hex4(0x0800) == "0800" && Decimal(14) == "14"
  {
    assert Hex2(8) == "08" && Hex2(0) == "00";
    assert Decimal(1) == "1";
  }

  /** Scenario: a hardware address of five zero octets and a last octet below 10. */
  lemma ScenarioMacRendering(last: byte)
    requires last < 10
    ensures MacAddr([0, 0, 0, 0, 0, last]) == "00:00:00:00:00:0" + [DigitChar(last)]
  {
    var parts := HexOctets([0, 0, 0, 0, 0, last]);
    assert Hex2(0) == "00";
    assert Hex2(last) == "0" + [DigitChar(last)];
    assert parts == ["00", "00", "00", "00", "00", Hex2(last)];
    JoinZeroPairs(Hex2(last));
  }

  lemma JoinZeroPairs(x: string)
    ensures Join(":", ["00", "00", "00", "00", "00", x]) == "00:00:00:00:00:" + x
  {
    var j1 := "00:" + x;
    var j2 := "00:" + j1;
    var j3 := "00:" + j2;
    var j4 := "00:" + j3;
    JoinZeroPair(x, [x]);
    JoinZeroPair(j1, ["00", x]);
    JoinZeroPair(j2, ["00", "00", x]);
    JoinZeroPair(j3, ["00", "00", "00", x]);
    JoinZeroPair(j4, ["00", "00", "00", "00", x]);
    assert "00:" + j4 == "00:00:00:00:00:" + x;
  }

  lemma JoinZeroPair(joined: string, parts: seq<string>)
    requires |parts| >= 1 && Join(":", parts) == joined
    ensures Join(":", ["00"] + parts) == "00:" + joined
  {
    assert (["00"] + parts)[1..] == parts;
  }

  /** An Ethernet and 20-byte IPv4 header, nothing after it: TCP from
      192.168.1.10 to 192.168.1.20. */
  const ScenarioIpv4Header: seq<byte> :=
    [0, 0, 0, 0, 0, 1, 0, 0, 0, 0, 0, 2, 0x08, 0x00,
     0x45, 0, 0, 0, 0, 0, 0, 0, 0, 6, 0, 0, 192, 168, 1, 10, 192, 168, 1, 20]

  /** The IPv4 fields of the scenario frame: IHL 5, protocol 6 and the two addresses. */
  lemma ScenarioHeaderFields()
    ensures IsIpv4Frame(ScenarioIpv4Header) && |ScenarioIpv4Header| == 34
    ensures ScenarioIpv4Header[23] == ProtoTcp && HeaderLengthOf(ScenarioIpv4Header[14]) == 20
    ensures DecodeIpv4(ScenarioIpv4Header) == Ipv4Header(20, 6, [192, 168, 1, 10], [192, 168, 1, 20])
  {
    var frame := ScenarioIpv4Header;
    assert frame[12] == 8 && frame[13] == 0 && frame[14] == 0x45 && frame[23] == 6;
    assert frame[26..30] == [192, 168, 1, 10];
    assert frame[30..34] == [192, 168, 1, 20];
  }

  /** Scenario: the bare headers decode without ports, the frame being too
      short for them; followed by 0x00 0x50 0x1F 0x90 they decode to ports 80
      and 8080. */
  lemma ScenarioTcpPorts()
    ensures var ip := Ipv4Header(20, 6, [192, 168, 1, 10], [192, 168, 1, 20]);
            && Decode(ScenarioIpv4Header).value.network == Ipv4(ip, None)
            && Decode(ScenarioIpv4Header + [0x00, 0x50, 0x1F, 0x90]).value.network
               == Ipv4(ip, Some(Ports(80, 8080)))
  {
    var frame := ScenarioIpv4Header;
    ScenarioHeaderFields();
    Ipv4BranchIff(frame);
    PortsRoundTrip(frame, 80, 8080, []);
    assert frame[..34] == frame;
    assert frame + EncodeU16(80) + EncodeU16(8080) + [] == frame + [0x00, 0x50, 0x1F, 0x90];
  }

  /** Scenario: how the two addresses of that frame are printed. */
  lemma ScenarioAddressRendering()
    ensures Ipv4Addr([192, 168, 1, 10]) == "192.168.1.10"
    ensures Ipv4Addr([192, 168, 1, 20]) == "192.168.1.20"
  {
    assert Decimal(19) == "19" && Decimal(192) == "192";
    assert Decimal(16) == "16" && Decimal(168) == "168";
    assert Decimal(1) == "1" && Decimal(10) == "10";
    assert Decimal(2) == "2" && Decimal(20) == "20";
    assert DecimalOctets([192, 168, 1, 10]) == ["192", "168", "1", "10"];
    assert DecimalOctets([192, 168, 1, 20]) == ["192", "168", "1", "20"];
    JoinAddress("10");
    JoinAddress("20");
  }

  lemma JoinAddress(last: string)
    ensures Join(".", ["192", "168", "1", last]) == "192.168.1." + last
  {
    var j1 := "1." + last;
    var j2 := "168." + j1;
    var parts := ["192", "168", "1", last];
    assert parts[1..] == ["168", "1", last];
    assert parts[1..][1..] == ["1", last];
    assert parts[1..][1..][1..] == [last];
    assert Join(".", ["1", last]) == j1;
    assert Join(".", ["168", "1", last]) == j2;
    assert Join(".", parts) == "192." + j2;
    assert "192." + j2 == "192.168.1." + last;
  }

  /** Scenario: how the ports 80 and 8080 are printed. */
  lemma ScenarioPortsRendering()
    ensures PortsSuffix(Some(Ports(80, 8080))) == " ports 80->8080"
  {
    PortsSuffixShape(Ports(80, 8080));
    ScenarioPortNumbers();
  }

  lemma ScenarioPortNumbers()
    ensures Decimal(80) == "80" && Decimal(8080) == "8080"
  {
    assert Decimal(8) == "8";
    assert Decimal(808) == "808";
  }

  /** The IPv4 line of a frame, from the renderings of its fields. */
  lemma Ipv4LineFromPieces(ts: string, frame: seq<byte>, src: string, dst: string,
                           a: string, b: string, proto: string, ports: string)
    requires IsIpv4Frame(frame)
    requires src == MacAddr(frame[6..12]) && dst == MacAddr(frame[0..6])
    requires a == Ipv4Addr(frame[26..30]) && b == Ipv4Addr(frame[30..34])
    requires proto == Decimal(frame[23]) && ports == PortsSuffix(FramePorts(frame))
    ensures DecodeFrame(ts, frame)
            == Some(ts + " " + src + " -> " + dst + (" IPv4 " + a + " -> " + b + " proto=" + proto + ports))
  {
    LineOfIpv4Frame(ts, frame);
  }

  /** The hardware addresses of the scenario frame. */
  lemma ScenarioEthernetAddresses()
    ensures ScenarioIpv4Header[0..6] == [0, 0, 0, 0, 0, 1]
    ensures ScenarioIpv4Header[6..12] == [0, 0, 0, 0, 0, 2]
  {
    var h := ScenarioIpv4Header;
    assert h[0] == 0 && h[1] == 0 && h[2] == 0 && h[3] == 0 && h[4] == 0 && h[5] == 1;
    assert h[6] == 0 && h[7] == 0 && h[8] == 0 && h[9] == 0 && h[10] == 0 && h[11] == 2;
  }

  /** The bytes of a frame that starts with the scenario headers. */
  lemma ScenarioSlicesOf(frame: seq<byte>)
    requires |frame| >= 34 && frame[..34] == ScenarioIpv4Header
    ensures frame[0..6] == [0, 0, 0, 0, 0, 1] && frame[6..12] == [0, 0, 0, 0, 0, 2]
    ensures frame[26..30] == [192, 168, 1, 10] && frame[30..34] == [192, 168, 1, 20]
    ensures frame[12] == 0x08 && frame[13] == 0x00 && frame[14] == 0x45 && frame[23] == 6
  {
    var h := ScenarioIpv4Header;
    ScenarioHeaderFields();
    ScenarioEthernetAddresses();
    assert frame[0..6] == h[0..6] && frame[6..12] == h[6..12];
    assert frame[26..30] == h[26..30] && frame[30..34] == h[30..34];
    assert frame[12] == h[12] && frame[13] == h[13] && frame[14] == h[14] && frame[23] == h[23];
  }

  /** The fields of a frame that starts with the scenario headers, as the
      IPv4 line prints them. */
  lemma ScenarioFieldsOf(frame: seq<byte>)
    requires |frame| >= 34 && frame[..34] == ScenarioIpv4Header
    ensures && IsIpv4Frame(frame)
            && MacAddr(frame[6..12]) == "00:00:00:00:00:02" && MacAddr(frame[0..6]) == "00:00:00:00:00:01"
            && Ipv4Addr(frame[26..30]) == "192.168.1.10" && Ipv4Addr(frame[30..34]) == "192.168.1.20"
            && frame[14] == 0x45 && frame[23] == 6 && Decimal(frame[23]) == "6"
  {
    ScenarioSlicesOf(frame);
    ScenarioMacRendering(1);
    ScenarioMacRendering(2);
    assert DigitChar(1) == '1' && DigitChar(2) == '2';
    ScenarioAddressRendering();
  }

  /** The line of a frame that starts with the scenario headers, whatever
      its ports suffix. */
  lemma ScenarioHeadersLine(ts: string, frame: seq<byte>, ports: string)
    requires |frame| >= 34 && frame[..34] == ScenarioIpv4Header
    requires ports == PortsSuffix(FramePorts(frame))
    ensures DecodeFrame(ts, frame)
            == Some(ts + " " + "00:00:00:00:00:02" + " -> " + "00:00:00:00:00:01"
                    + (" IPv4 " + "192.168.1.10" + " -> " + "192.168.1.20" + " proto=" + "6" + ports))
  {
    ScenarioFieldsOf(frame);
    Ipv4LineFromPieces(ts, frame, "00:00:00:00:00:02", "00:00:00:00:00:01",
                       "192.168.1.10", "192.168.1.20", "6", ports);
  }

  /** The bare scenario headers are too short for ports. */
  lemma ScenarioBareFramePorts(frame: seq<byte>)
    requires frame == ScenarioIpv4Header
    ensures |frame| >= 34 && frame[..34] == ScenarioIpv4Header
    ensures FramePorts(frame) == None
  {
    assert frame[..34] == frame;
    ScenarioSlicesOf(frame);
    assert HeaderLengthOf(frame[14]) == 20;
  }

  /** Scenario: the line printed for the bare TCP headers, which are too
      short for ports. */
  lemma ScenarioIpv4Line(ts: string)
    ensures DecodeFrame(ts, ScenarioIpv4Header)
            == Some(ts + " " + "00:00:00:00:00:02" + " -> " + "00:00:00:00:00:01"
                    + (" IPv4 " + "192.168.1.10" + " -> " + "192.168.1.20" + " proto=" + "6" + ""))
  {
    ScenarioBareFramePorts(ScenarioIpv4Header);
    ScenarioHeadersLine(ts, ScenarioIpv4Header, "");
  }

  /** The ports read from the scenario headers followed by 00 50 1F 90. */
  lemma ScenarioTcpFramePorts(frame: seq<byte>)
    requires frame == ScenarioIpv4Header + [0x00, 0x50, 0x1F, 0x90]
    ensures |frame| >= 34 && frame[..34] == ScenarioIpv4Header
    ensures FramePorts(frame) == Some(Ports(80, 8080))
  {
    assert frame[..34] == ScenarioIpv4Header;
    ScenarioSlicesOf(frame);
    assert frame[34] == 0x00 && frame[35] == 0x50 && frame[36] == 0x1F && frame[37] == 0x90;
    assert HeaderLengthOf(frame[14]) == 20;
  }

  /** Scenario: the line printed when the ports 80 and 8080 follow those
      headers. */
  lemma ScenarioTcpLine(ts: string)
    ensures DecodeFrame(ts, ScenarioIpv4Header + [0x00, 0x50, 0x1F, 0x90])
            == Some(ts + " " + "00:00:00:00:00:02" + " -> " + "00:00:00:00:00:01"
                    + (" IPv4 " + "192.168.1.10" + " -> " + "192.168.1.20" + " proto=" + "6"
                       + " ports 80->8080"))
  {
    var frame := ScenarioIpv4Header + [0x00, 0x50, 0x1F, 0x90];
    ScenarioTcpFramePorts(frame);
    ScenarioPortsRendering();
    ScenarioHeadersLine(ts, frame, " ports 80->8080");
  }
}

=== FILE: text.dfy ===
/** The string operations the tools rely on: Python's `str.join` and
    `str.split`, the `02x`/`04x` hexadecimal and `str()` decimal renderings of
    numbers, and the `int()` parse of a decimal literal, each with the parser
    or renderer that undoes it. */
module Text {
  import opened Wrappers
  import opened Bytes

  /** The number of occurrences of `c` in `s`. */
  function CountChar(s: string, c: char): (n: nat)
    ensures n <= |s|
    ensures n == 0 <==> c !in s
  {
    if |s| == 0 then 0
    else (if s[0] == c then 1 else 0) + CountChar(s[1..], c)
  }

  /** The summed lengths of `parts`. */
  function TotalLength(parts: seq<string>): nat
  {
    if |parts| == 0 then 0 else |parts[0]| + TotalLength(parts[1..])
  }

  /** Python's `sep.join(parts)`: the pieces in order, with one separator
      between neighbours and none at either end. */
  function Join(sep: string, parts: seq<string>): string
  {
    if |parts| == 0 then ""
    else if |parts| == 1 then parts[0]
    else parts[0] + sep + Join(sep, parts[1..])
  }

  /** Python's `s.split(c)` for a one-character separator: the maximal
      separator-free pieces between occurrences of `c`, one more piece than
      there are separators. */
  function Split(s: string, c: char): (parts: seq<string>)
    ensures |parts| == CountChar(s, c) + 1
    ensures forall i :: 0 <= i < |parts| ==> c !in parts[i]
  {
    if |s| == 0 then [""]
    else
      var rest := Split(s[1..], c);
      if s[0] == c then [""] + rest
      else [[s[0]] + rest[0]] + rest[1..]
  }

  /** Joining the pieces of a split with the same separator restores the string. */
  lemma {:induction false} JoinSplit(s: string, c: char)
    ensures Join([c], Split(s, c)) == s
  {
    if |s| > 0 {
      var tail := s[1..];
      var rest := Split(tail, c);
      JoinSplit(tail, c);
      assert s == [s[0]] + tail;
      SplitCons(s[0], tail, c);
      if s[0] == c {
        JoinCons("", rest, [c]);
      } else if |rest| == 1 {
        assert Split(s, c) == [[s[0]] + rest[0]];
      } else {
        assert Join([c], rest) == rest[0] + [c] + Join([c], rest[1..]);
        JoinCons([s[0]] + rest[0], rest[1..], [c]);
      }
    }
  }

  /** Joining one more piece in front adds it and a separator. */
  lemma JoinCons(first: string, rest: seq<string>, sep: string)
    requires |rest| >= 1
    ensures Join(sep, [first] + rest) == first + sep + Join(sep, rest)
  {
    assert ([first] + rest)[1..] == rest;
  }

  /** A string without the separator splits into itself. */
  lemma {:induction false} SplitNoSep(p: string, c: char)
    requires c !in p
    ensures Split(p, c) == [p]
  {
    if |p| > 0 {
      SplitNoSep(p[1..], c);
      assert [p[0]] + p[1..] == p;
    }
  }

  /** Splitting stops at the first separator. */
  lemma SplitAtSep(p: string, c: char, t: string)
    requires c !in p
    ensures Split(p + [c] + t, c) == [p] + Split(t, c)
  {
    var s := p + [c] + t;
    assert s[..|p|] == p && s[|p|] == c && s[|p| + 1..] == t;
    SplitAtIndex(s, c, |p|);
  }

  /** The same, for the first separator at index `k` of one string. */
  lemma {:induction false} SplitAtIndex(s: string, c: char, k: nat)
    requires k < |s| && s[k] == c && c !in s[..k]
    ensures Split(s, c) == [s[..k]] + Split(s[k + 1..], c)
  {
    if k > 0 {
      assert s[0] != c by { assert s[0] == s[..k][0]; }
      assert s[1..][..k - 1] == s[1..k] && s[1..][k..] == s[k + 1..];
      assert c !in s[1..][..k - 1] by { assert forall j :: 0 <= j < k - 1 ==> s[1..k][j] == s[..k][j + 1]; }
      SplitAtIndex(s[1..], c, k - 1);
      var rest := Split(s[1..], c);
      assert Split(s, c) == [[s[0]] + rest[0]] + rest[1..];
      assert [s[0]] + s[1..k] == s[..k];
    }
  }

  /** One step of `Split`: a separator starts a new piece, any other
      character joins the first piece. */
  lemma SplitCons(x: char, s: string, c: char)
    ensures Split([x] + s, c) == if x == c then [""] + Split(s, c)
                                 else [[x] + Split(s, c)[0]] + Split(s, c)[1..]
  {
    assert ([x] + s)[1..] == s;
  }

  /** Splitting a join of separator-free pieces recovers the pieces. */
  lemma {:induction false} SplitJoin(parts: seq<string>, c: char)
    requires |parts| >= 1
    requires forall i :: 0 <= i < |parts| ==> c !in parts[i]
    ensures Split(Join([c], parts), c) == parts
  {
    if |parts| == 1 {
      SplitNoSep(parts[0], c);
    } else {
      SplitJoin(parts[1..], c);
      SplitAtSep(parts[0], c, Join([c], parts[1..]));
      assert [parts[0]] + parts[1..] == parts;
    }
  }

  /** The length of a join: the pieces plus one separator between each
      neighbouring pair. */
  lemma {:induction false} JoinTotalLength(sep: string, parts: seq<string>)
    requires |parts| >= 1
    ensures |Join(sep, parts)| == TotalLength(parts) + (|parts| - 1) * |sep|
  {
    if |parts| > 1 {
      JoinTotalLength(sep, parts[1..]);
    }
  }

  /** The length of a join of equally wide pieces. */
  lemma {:induction false} JoinLength(sep: string, parts: seq<string>, w: nat)
    requires |parts| >= 1
    requires forall i :: 0 <= i < |parts| ==> |parts[i]| == w
    ensures |Join(sep, parts)| == |parts| * w + (|parts| - 1) * |sep|
  {
    if |parts| > 1 {
      JoinLength(sep, parts[1..], w);
      calc {
        |Join(sep, parts)|;
        w + |sep| + (|parts| - 1) * w + (|parts| - 2) * |sep|;
        |parts| * w + (|parts| - 1) * |sep|;
      }
    }
  }

  /** A character absent from the separator and every piece is absent from the join. */
  lemma {:induction false} JoinAvoids(x: char, sep: string, parts: seq<string>)
    requires x !in sep
    requires forall i :: 0 <= i < |parts| ==> x !in parts[i]
    ensures x !in Join(sep, parts)
  {
    if |parts| > 1 {
      JoinAvoids(x, sep, parts[1..]);
    }
  }

  /** Python's `s.startswith(prefix)`. */
  predicate StartsWith(s: string, prefix: string)
  {
    |prefix| <= |s| && s[..|prefix|] == prefix
  }

  // ---------------------------------------------------------------------
  // Hexadecimal

  predicate IsHexDigit(ch: char)
  {
    '0' <= ch <= '9' || 'a' <= ch <= 'f'
  }

  /** The lower-case hexadecimal digit for `n`. */
  function HexDigit(n: nat): (ch: char)
    requires n < 16
    ensures IsHexDigit(ch)
  {
    if n < 10 then ('0' as int + n) as char else ('a' as int + n - 10) as char
  }

  /** The value of a lower-case hexadecimal digit; the inverse of `HexDigit`. */
  function HexValue(ch: char): (n: nat)
    requires IsHexDigit(ch)
    ensures n < 16 && HexDigit(n) == ch
  {
    if ch <= '9' then ch as int - '0' as int else ch as int - 'a' as int + 10
  }

  /** Python's `f"{b:02x}"` for an octet. */
  function Hex2(b: byte): (r: string)
    ensures |r| == 2 && IsHexDigit(r[0]) && IsHexDigit(r[1])
  {
    [HexDigit(b / 16), HexDigit(b % 16)]
  }

  /** Reads exactly two lower-case hexadecimal digits. */
  function ParseHex2(s: string): Option<byte>
  {
    if |s| == 2 && IsHexDigit(s[0]) && IsHexDigit(s[1]) then
      Some(HexValue(s[0]) * 16 + HexValue(s[1]))
    else None
  }

  /** `Hex2` and `ParseHex2` are inverse: every octet renders to a string
      the parser maps back to it, and every string the parser accepts is the
      rendering of what it returns. */
  lemma Hex2RoundTrip(b: byte, s: string)
    ensures ParseHex2(Hex2(b)) == Some(b)
    ensures ParseHex2(s) == Some(b) ==> Hex2(b) == s
  {
  }

  /** Python's `f"{v:04x}"` for a 16-bit value: four lower-case hexadecimal digits. */
  function Hex4(v: u16): (r: string)
    ensures |r| == 4 && forall i :: 0 <= i < 4 ==> IsHexDigit(r[i])
  {
    Hex2(v / 256) + Hex2(v % 256)
  }

  /** Reads exactly four lower-case hexadecimal digits. */
  function ParseHex4(s: string): Option<u16>
  {
    if |s| != 4 then None
    else match (ParseHex2(s[..2]), ParseHex2(s[2..]))
      case (Some(hi), Some(lo)) => Some((hi as int) * 256 + (lo as int))
      case _ => None
  }

  /** `Hex4` renders every 16-bit value to a string `ParseHex4` maps back to it. */
  lemma Hex4RoundTrip(v: u16)
    ensures ParseHex4(Hex4(v)) == Some(v)
  {
  }

  // ---------------------------------------------------------------------
  // Decimal

  predicate IsDigit(ch: char)
  {
    '0' <= ch <= '9'
  }

  predicate AllDigits(s: string)
  {
    forall i :: 0 <= i < |s| ==> IsDigit(s[i])
  }

  function DigitChar(d: nat): (ch: char)
    requires d < 10
    ensures IsDigit(ch)
  {
    ('0' as int + d) as char
  }

  function DigitValue(ch: char): (d: nat)
    requires IsDigit(ch)
    ensures d < 10 && DigitChar(d) == ch
  {
    ch as int - '0' as int
  }

  /** Python's `str(n)` for a non-negative integer: decimal digits without
      leading zeros. */
  function Decimal(n: nat): (r: string)
    ensures |r| >= 1 && AllDigits(r)
    ensures |r| > 1 ==> r[0] != '0'
    ensures n < 10 <==> |r| == 1
  {
    if n < 10 then [DigitChar(n)] else Decimal(n / 10) + [DigitChar(n % 10)]
  }

  /** The value of a string of decimal digits, most significant first. */
  function DigitsValue(s: string): nat
    requires AllDigits(s)
  {
    if |s| == 0 then 0 else DigitsValue(s[..|s| - 1]) * 10 + DigitValue(s[|s| - 1])
  }

  /** Reading back the decimal rendering of `n` gives `n`. */
  lemma {:induction false} DecimalRoundTrip(n: nat)
    ensures DigitsValue(Decimal(n)) == n
  {
    if n >= 10 {
      DecimalRoundTrip(n / 10);
      var s := Decimal(n);
      assert s[..|s| - 1] == Decimal(n / 10);
    }
  }

  /** A decimal literal as `str()` would write it: digits, no leading zero. */
  predicate IsCanonicalDecimal(s: string)
  {
    |s| >= 1 && AllDigits(s) && (|s| > 1 ==> s[0] != '0')
  }

  lemma {:induction false} DigitsValueAtLeastLead(s: string)
    requires |s| >= 1 && AllDigits(s)
    ensures DigitsValue(s) >= DigitValue(s[0])
  {
    if |s| > 1 {
      DigitsValueAtLeastLead(s[..|s| - 1]);
    }
  }

  /** Every canonical decimal literal is the rendering of its value. */
  lemma {:induction false} DecimalOfDigits(s: string)
    requires IsCanonicalDecimal(s)
    ensures Decimal(DigitsValue(s)) == s
  {
    if |s| > 1 {
      var init, last := s[..|s| - 1], s[|s| - 1];
      assert init[0] == s[0];
      assert IsCanonicalDecimal(init);
      DecimalOfDigits(init);
      DigitsValueAtLeastLead(init);
      var q, d := DigitsValue(init), DigitValue(last);
      var v := DigitsValue(s);
      assert v == q * 10 + d;
      DivModUnique10(v, q, d);
      assert v >= 10;
      assert Decimal(v) == Decimal(q) + [DigitChar(d)];
      assert s == init + [last];
    }
  }

  lemma DivModUnique10(v: int, q: int, r: int)
    requires 0 <= r < 10 && v == q * 10 + r
    ensures v / 10 == q && v % 10 == r
  {
  }

  /** The texts `int()` reads as an integer: one or more ASCII digits,
      with an optional "+" or "-" in front. */
  predicate IsIntLiteral(s: string)
  {
    || (|s| >= 1 && AllDigits(s))
    || (|s| >= 2 && (s[0] == '+' || s[0] == '-') && AllDigits(s[1..]))
  }

  /** Python's `int(s)` restricted to an optional sign followed by at least
      one ASCII digit; leading zeros are accepted, as `int` accepts them. */
  function ParseInt(s: string): (r: Option<int>)
    ensures r.Some? <==> IsIntLiteral(s)
    ensures r.Some? && '-' !in s ==> r.value >= 0
  {
    assert |s| >= 1 && AllDigits(s) ==> IsDigit(s[0]);
    if |s| >= 1 && (s[0] == '+' || s[0] == '-') then
      if |s| >= 2 && AllDigits(s[1..]) then
        var n: int := DigitsValue(s[1..]);
        Some(if s[0] == '-' then -n else n)
      else None
    else if |s| >= 1 && AllDigits(s) then Some(DigitsValue(s))
    else None
  }

  /** `int(str(n)) == n`. */
  lemma ParseIntDecimal(n: nat)
    ensures ParseInt(Decimal(n)) == Some(n)
  {
    DecimalRoundTrip(n);
  }

  predicate AllZeros(s: string)
  {
    forall i :: 0 <= i < |s| ==> s[i] == '0'
  }

  /** Leading zeros do not change the value of a digit string. */
  lemma {:induction false} DigitsValueLeadingZeros(zeros: string, t: string)
    requires AllZeros(zeros) && AllDigits(t)
    ensures AllDigits(zeros + t) && DigitsValue(zeros + t) == DigitsValue(t)
  {
    var s := zeros + t;
    if |t| == 0 {
      assert s == zeros;
      if |zeros| > 0 {
        DigitsValueLeadingZeros(zeros[..|zeros| - 1], "");
        assert zeros[..|zeros| - 1] + "" == s[..|s| - 1];
      }
    } else {
      DigitsValueLeadingZeros(zeros, t[..|t| - 1]);
      assert s[..|s| - 1] == zeros + t[..|t| - 1];
    }
  }

  /** `int()` accepts leading zeros: `int("007") == 7`. */
  lemma ParseIntLeadingZeros(zeros: string, n: nat)
    requires AllZeros(zeros)
    ensures ParseInt(zeros + Decimal(n)) == Some(n)
  {
    DigitsValueLeadingZeros(zeros, Decimal(n));
    DecimalRoundTrip(n);
    assert (zeros + Decimal(n))[0] == if |zeros| > 0 then zeros[0] else Decimal(n)[0];
  }

  /** A leading "+" is accepted and changes nothing; a leading "-" negates. */
  lemma ParseIntSign(t: string)
    requires |t| >= 1 && AllDigits(t)
    ensures ParseInt("+" + t) == ParseInt(t) == Some(DigitsValue(t))
    ensures ParseInt("-" + t) == Some(-(DigitsValue(t) as int))
  {
    assert ("+" + t)[0] == '+' && ("+" + t)[1..] == t;
    assert ("-" + t)[0] == '-' && ("-" + t)[1..] == t;
    assert t[0] != '+' && t[0] != '-' by { assert IsDigit(t[0]); }
  }

  /** Reads a canonical decimal literal of an octet, 0 to 255. */
  function ParseOctet(s: string): Option<byte>
  {
    if IsCanonicalDecimal(s) && DigitsValue(s) < 256 then Some(DigitsValue(s)) else None
  }

  /** `Decimal` and `ParseOctet` are inverse on octets. */
  lemma OctetRoundTrip(b: byte, s: string)
    ensures ParseOctet(Decimal(b)) == Some(b)
    ensures ParseOctet(s) == Some(b) ==> Decimal(b) == s
  {
    DecimalRoundTrip(b);
    if ParseOctet(s) == Some(b) {
      DecimalOfDigits(s);
    }
  }
}

=== FILE: wrappers.dfy ===
/** Failure-compatible result types shared by the decoders and parsers. */
module Wrappers {

  /** A value that may be absent. */
  datatype Option<+T> = None | Some(value: T)

  /** Either a successful value or the error that stopped the computation,
      standing in for a raised Python exception. */
  datatype Result<+R, +E> = Success(value: R) | Failure(error: E)
}
